=== FILE: README.md ===
# Aircraft state aggregation, modelled in Dafny

This project models the aircraft state aggregation engine of a small ADS-B
tracker. Frames received from a Mode S receiver are classified by a decoder.
Each decoded message is fused into one record per aircraft address. When a
record holds a callsign, a full position and a velocity, it is handed back to
the caller for publishing. Records are evicted after a period of silence.

The model has three parts:

- **The per-aircraft record** (`AircraftState`, in `aircraft_state.dfy`).
  - An immutable `Aircraft` datatype with optional identity, position and velocity fields.
  - A message counter, and first-seen and last-seen times.
  - Two CPR buffers, one even frame and one odd frame, each with its capture time.
  - Its operations are pure functions: construction, `Touch` (the source's
    `_update_timestamp`/`touch`), the position update with CPR pairing, and the setters.
  - The completeness predicate and the presence rule of `to_dict`.
  - `stream1090/AircraftState.py` is a byte-identical copy of `AircraftState.py`, and this one module models both.
- **The registry** (`SeenAircraft`, in `seen_aircraft.dfy`).
  - A map from address to record and an eviction threshold.
  - `Update` creates a record on first sight, dispatches on the message category exactly as the source's `elif` chain does, and returns the record if and only if it is complete.
  - `CleanupOldAircraft` evicts records whose silence is strictly longer than the threshold.
  - `CompleteAircraft`, `AircraftCount` and `CompleteCount` are the read-only queries.
  - `histories.dfy` lifts the per-message facts to whole message streams.
- **The frame classifier** (`AdsbDecoder`, in `adsb_decoder.dfy`).
  - It strips the `*…;` framing.
  - It classifies by downlink format (DF), and for DF 17/18 by type code (TC). The DF and TC numbers are those of ICAO Annex 10, Volume IV, and RTCA DO-260B; the category labels, and which fields each branch reads, are the decoder's own (for instance DF 21 is labelled `commb_alt` and read with the altitude-code reader outside any `try`).
  - It builds the result or error dictionary.
  - Each pyModeS call is a given function of the stripped frame text. It returns a value or raises, and an `AttributeError` is flagged because some call sites tolerate only that.
  - `pipeline.dfy` connects the decoder's output to the registry.

Conventions of the model:

- **Time.** Time is an integer count of microseconds, the resolution of Python's `datetime`. Every operation that reads `datetime.now` in the source takes `now` as a parameter instead.
  - The 10 s pairing window is `PairingWindow == 10_000_000`.
  - The 300 s eviction threshold is compared as `now - lastSeen > threshold * 1_000_000`.
  - Comparing integer microseconds gives the same answers as the source's `total_seconds()` floating-point comparisons.
- **The position resolver.** pyModeS's global CPR decode is a function parameter, `Resolver`. It answers `Fix(lat, lon)`, `NoFix` (`None`), or `Raised` (an exception).
- **Dictionaries.** Python dictionaries are records of `Field<T> = Absent | Present(value)` entries. This keeps the source's distinction between a missing key and a key holding `None`, which matters in several branches.
- **Category names.** `msg_type` stays a string at the registry. `Parse` reads it back as a category; a string that names no category falls to the catch-all.
- **Addresses.** pyModeS returns `None` as the address for downlink formats it cannot attribute. The registry then files such frames under the key `None`, and the model keeps that: `Address = Option<string>`.

Behaviour of the code worth noting, all of it modelled as written:

- A velocity message adds one to the counter per velocity key present, not one per message. A frame carrying all three components and a tag counts four (`Pipeline.FullVelocityCountsFour`). The exact total over a stream is `Histories.ReplayCount`; the counter equals one plus the number of messages only under `Histories.ReplayCountOnePerMessage`'s hypothesis. The four-message walk-through in `Histories.PairingScenario` (identity, even frame, odd frame, full velocity) ends with the counter at 7.
- An identity message without a `callsign` key falls through to the catch-all branch and is counted. One whose callsign is empty or `None` changes nothing, not even `last_seen`.
- Completeness can revert at the registry. A velocity message whose key holds `None` assigns `None` (`SeenAircraft.ApplyKeepsCompleteness`, `AircraftState.VelocityNoneRevokesCompleteness`). Completeness is monotone only for messages that never do this, which includes every message the decoder produces (`Pipeline.DecodedKeepsCompleteness`).
- `to_dict` shows a position or velocity block only when one of its values is truthy, not merely set. A complete record at latitude 0, longitude 0 and altitude 0 has no position block (`AircraftState.ZeroPositionHidden`).

## Model

| member | source | states |
|---|---|---|
| Common.Strip | stream1090/adsb_decoder.py:49-51 | the result is an infix of the callsign whose dropped prefix and suffix are all whitespace, and it has no whitespace at either end |
| Common.StripEnd | stream1090/adsb_decoder.py:51 | the kept infix starts after leading whitespace, stops before trailing whitespace, and everything dropped is whitespace |
| Common.StripIdempotent | stream1090/adsb_decoder.py:51 | stripping an already stripped callsign changes nothing |
| Common.StripEmptyIffBlank | stream1090/adsb_decoder.py:49-51 | a callsign strips to the empty text exactly when it is all whitespace |
| AircraftState.New | AircraftState.py:14-34 | a new record keeps its address and optional callsign, holds no position, velocity or buffered frame, has count 1 and last_seen >= first_seen, is valid and is not complete |
| AircraftState.Touch | AircraftState.py:36-39 | the count rises by one, last_seen becomes now, and no other field changes (touch at lines 186-188 only calls this) |
| AircraftState.UpdatePosition | AircraftState.py:41-90 | counts exactly once; sets altitude iff one is given; overwrites only the buffer of the frame's parity; writes lat and lon together, and returns True, iff both buffers hold non-empty frames less than 10 s apart and the resolver gives a fix; otherwise lat/lon are unchanged |
| AircraftState.PositionNeedsBothParities | stream1090/AircraftState.py:69-70 | with the partner buffer empty, no position is written whatever the resolver would say |
| AircraftState.StalePartnerNotResolved | stream1090/AircraftState.py:71-72 | a partner frame 10 s or more away is never resolved (the window is strict) |
| AircraftState.UpdatePositionKeepsValid | AircraftState.py:52-90 | under a clock that does not run backwards, a position update keeps lat/lon paired, only after both parities, and no capture or sighting before creation |
| AircraftState.SetCallsign | AircraftState.py:96-100 | None or "" leaves the record identical (no field, time or count change); any other value is stored and counted once |
| AircraftState.SetSpeed | AircraftState.py:118-121 | stores its argument even when None, counts once, changes nothing else |
| AircraftState.SetHeading | AircraftState.py:127-130 | stores its argument even when None, counts once, changes nothing else |
| AircraftState.SetVerticalRate | AircraftState.py:136-139 | stores its argument even when None, counts once, changes nothing else |
| AircraftState.SetVelocityType | AircraftState.py:145-148 | stores its argument even when None, counts once, changes nothing else |
| AircraftState.CompleteIffRequiredHeld | AircraftState.py:150-160 | complete iff callsign, lat, lon, alt, speed, heading and vertical rate are all held; velocity type and buffers play no part |
| AircraftState.CompletenessSurvivesUpdates | stream1090/AircraftState.py:41-148 | touch, the callsign setter, the position update and the velocity setters given values all keep a complete record complete |
| AircraftState.VelocityNoneRevokesCompleteness | AircraftState.py:118-139 | a speed, heading or vertical-rate setter given None makes a complete record incomplete |
| AircraftState.ToDict | AircraftState.py:162-184 | each block appears iff one of its values is truthy and then carries the record's values; metadata mirrors the record |
| AircraftState.ZeroPositionHidden | AircraftState.py:168-172 | a complete record at (0.0, 0.0, 0) is published without a position block |
| DecodedMessage.Parse | SeenAircraft.py:35 | a msg_type text maps to the category of that name, and to none exactly when no category has that name |
| DecodedMessage.ParseName | stream1090/adsb_decoder.py:42-159 | every category name the decoder writes reads back as that category |
| SeenAircraft.Init | SeenAircraft.py:12-14 | an empty registry with a 300 s eviction threshold |
| SeenAircraft.Tracked | SeenAircraft.py:30-34 | the message goes to the existing record, or to a new one when the address is unseen |
| SeenAircraft.Update | SeenAircraft.py:25-130 | a message without "icao" leaves the registry unchanged and returns None; otherwise the key is present afterwards, only that key's record changes, a fresh record is made only for an unseen key, and the record is returned iff it is complete |
| SeenAircraft.Apply | SeenAircraft.py:40-123 | every branch keeps the record's address and creation time |
| SeenAircraft.ApplyPosition | SeenAircraft.py:46-71 | counts exactly once; an airborne frame with raw text is handed to the position update with its altitude and parity flag (default even); a surface frame or a frame without raw text touches nothing but the altitude |
| SeenAircraft.ApplyVelocity | SeenAircraft.py:73-94 | assigns every velocity key present and keeps the others; counts once per key present, or once if none is |
| SeenAircraft.ApplyAltitude | SeenAircraft.py:96-106 | takes a present, non-None altitude, keeps every other field, counts once |
| SeenAircraft.IdentityEffect | SeenAircraft.py:41-44 | a truthy callsign is stored and counted; an empty one changes nothing at all; without the key the message is only counted by the catch-all |
| SeenAircraft.PositionEffect | SeenAircraft.py:46-71 | airborne frames with raw text go to the CPR update; surface frames never touch lat/lon or buffers and set altitude only when given; without raw text only a count |
| SeenAircraft.VelocityEffect | SeenAircraft.py:73-94 | present keys are assigned, absent ones kept; the count rises by the number of keys present, or by 1 if none |
| SeenAircraft.AltitudeEffect | SeenAircraft.py:96-106 | surveillance, Comm-B and ACAS replies set altitude only when present and non-None; count once |
| SeenAircraft.CountOnlyEffect | SeenAircraft.py:108-123 | surveillance identity, status, target state, operation status, all-call, other ADS-B, unknown DF and unknown types change only last_seen and add 1 |
| SeenAircraft.ApplyCount | SeenAircraft.py:40-123 | the counter rises by exactly `Increment(m)`, and last_seen moves iff the counter does |
| SeenAircraft.BumpKeepsValid | AircraftState.py:36-39 | a counted change that leaves position and buffers alone keeps a record valid |
| SeenAircraft.ApplyKeepsValid | SeenAircraft.py:40-123 | every dispatch branch keeps a record valid under a clock that does not run backwards |
| SeenAircraft.ApplyKeepsCompleteness | SeenAircraft.py:73-94 | a complete record stays complete iff the message does not assign None to speed, heading or vertical rate |
| SeenAircraft.ApplyKeepsOtherBuffer | SeenAircraft.py:54-58 | a message without an airborne frame of a parity leaves that parity's buffer unchanged |
| SeenAircraft.UpdateKeepsValid | SeenAircraft.py:28-34 | an update keeps every record valid and none seen after now |
| SeenAircraft.UpdateCountsNewAddress | SeenAircraft.py:31-32 | the tracked count grows by one exactly when the message names an unseen address |
| SeenAircraft.CleanupOldAircraft | SeenAircraft.py:141-152 | removes exactly the records with now - last_seen > threshold (strict), keeps every other record unchanged, and leaves none silent beyond the threshold |
| SeenAircraft.CompleteAircraft | SeenAircraft.py:132-139 | exactly the complete records, with their values |
| SeenAircraft.AircraftCount | SeenAircraft.py:154-156 | the number of tracked addresses, zero exactly when nothing is tracked |
| SeenAircraft.CompleteCount | SeenAircraft.py:158-160 | the number of tracked addresses whose record is complete; at most the tracked count, and equal to it iff every record is complete |
| Histories.ReplayCount | SeenAircraft.py:31-34 | after a stream, an address is tracked iff it was before or a message named it, and its counter is its start value plus the increments of its messages |
| Histories.TotalIsOccurrences | SeenAircraft.py:40-123 | when each message counts once, the total increment equals the number of messages |
| Histories.ReplayCountOnePerMessage | SeenAircraft.py:40-123 | a record created by a stream whose messages each count once ends with count 1 + number of its messages |
| Histories.ApplyWithoutPartner | AircraftState.py:62-70 | a message without a frame of the missing parity keeps that buffer empty and lat/lon unknown |
| Histories.ReplaySingleParity | AircraftState.py:69-70 | if only one parity ever arrives for an address, its lat/lon stay None for the whole stream |
| Histories.ReplayKeepsCompleteness | SeenAircraft.py:125-130 | a complete record stays tracked and complete through any stream that never assigns None to a velocity component |
| Histories.ReplayKeepsValid | AircraftState.py:52-67 | fed in time order, every record stays valid: lat/lon paired and nothing before creation |
| Histories.PairingScenario | AircraftState.py:62-85 | identity, even frame, odd frame 2 s later, then velocity: position resolved on the odd frame, record returned on the velocity message, counter 7 |
| Histories.StalePairScenario | stream1090/AircraftState.py:71-72 | an even and an odd frame 12 s apart yield no position |
| AdsbDecoder.StripFraming | stream1090/adsb_decoder.py:24-27 | drops one leading `*` exactly when there is one, then drops the last character exactly when it is `;`, keeping the rest in order |
| AdsbDecoder.FramingRoundTrip | stream1090/adsb_decoder.py:24-27 | stripping `*s;` gives back s for every s |
| AdsbDecoder.FramingRemovesOneMarkerEach | stream1090/adsb_decoder.py:24-27 | an unframed line is unchanged, and `**s;;` strips only to `*s;` |
| AdsbDecoder.AdsbCategory | stream1090/adsb_decoder.py:42-118 | TC 1-4 identity, 5-8 surface_position, 9-18 position, 19 velocity, 20-22 position_gnss, 28 status, 29 target_state, 31 operation_status, any other adsb_other, each iff |
| AdsbDecoder.ReplyCategory | stream1090/adsb_decoder.py:120-159 | DF 0 short_acas, 4 surveillance_alt, 5 surveillance_identity, 11 all_call, 16 long_acas, 20/21 commb_alt, any other unknown_df, each iff |
| AdsbDecoder.Tolerate | stream1090/adsb_decoder.py:129-140 | a swallowed exception reads as no value, an unswallowed one still propagates |
| AdsbDecoder.IfGiven | stream1090/adsb_decoder.py:97-140 | a data entry is written exactly when the library gave a value |
| AdsbDecoder.DecodeMessage | stream1090/adsb_decoder.py:14-169 | never raises; msg is the stripped text; df and icao come from the library; typecode is present iff DF is 17 or 18 and is then the library's type-code read, and msg_type follows the type-code table then, the DF table otherwise; the result is decoded exactly when every unguarded library call on the frame's path returns (DF, address, type code and the branch's reads; altcode for DF 0/16/20/21; emergency reads may lack their function) and is otherwise the error result, which reports the DF when it can be read |
| AdsbDecoder.PositionResultShape | stream1090/adsb_decoder.py:53-91 | position results carry the parity flag and frame type "odd" iff the flag is set; surface results never carry an altitude |
| AdsbDecoder.VelocityResultShape | stream1090/adsb_decoder.py:69-82 | speed, heading and vertical rate are present only when non-None; velocity type only for a tuple of length 4 or more with a truthy 4th entry |
| AdsbDecoder.IdentityResultShape | stream1090/adsb_decoder.py:46-51 | callsign present iff the library's callsign is truthy, and then stripped (possibly empty) |
| AdsbDecoder.ReplyResultShape | stream1090/adsb_decoder.py:97-159 | ACAS and Comm-B results always carry the altitude read; DF 4 carries the altitude and DF 5 the squawk whenever the library reads one; status carries each emergency field the library returns; unknown DF reports its DF; other ADS-B reports its TC |
| AdsbDecoder.ExceptionHandling | stream1090/adsb_decoder.py:125-169 | DF 4 altitude and DF 5 squawk failures are swallowed, missing emergency functions too; a DF 0 altitude failure yields the error result |
| Pipeline.AsMessage | SeenAircraft.py:25-36 | a decoded result reaches the registry with its address, category, frame text and data; an error result has no address |
| Pipeline.ErrorLeavesRegistry | SeenAircraft.py:25-26 | a line the decoder rejects leaves the registry unchanged and returns None |
| Pipeline.BlankCallsignChangesNothing | SeenAircraft.py:41-43 | an identity frame whose callsign strips to "" leaves a tracked aircraft's registry entry exactly as it was |
| Pipeline.DecodedSurfaceOnlyCounts | SeenAircraft.py:60-67 | a decoded surface position only counts the message, because the decoder never gives it an altitude |
| Pipeline.DecodedKeepsCompleteness | stream1090/adsb_decoder.py:72-82 | no decoded message revokes completeness |
| Pipeline.FullVelocityCountsFour | SeenAircraft.py:73-94 | a decoded velocity frame with all components and a tag adds 4 to the counter |

## Left out

- I/O. The stdin loop, argument parsing, logging, printing to the output pipe, the cleanup cadence of the stream consumer, and the decoder's `main` are all left out.
- pyModeS bit-level decoding is left out: DF, address, type code, callsign, altitudes, parity flag, velocity, squawk and the global CPR position decode. Each is a given function, and its arithmetic is not part of this model.
- Exception texts in the error dictionary are left out. `DecodeError` keeps the stripped frame and the optional DF, not the message text.
- Floating-point values are opaque `real`s, and only their presence (and, for `to_dict`, their truthiness) matters.
- The text formatting of `to_dict` (`isoformat`, key names) is left out.
- `AircraftState.UpdatePosition`, `SeenAircraft.Update`, `AircraftState.New` read one `now` per call, while the source reads the clock separately for `last_seen` and for the CPR capture time. The model therefore treats those readings as equal. For this reason `AircraftState.Chronological` says nothing about how a capture time orders against `lastSeen`: in the source a fresh capture is read a little after `last_seen`.
- The resolver receives integer microseconds, where the source passes float seconds from `datetime.timestamp()`.
- Python's dynamic typing is not modelled. Data entries have fixed types (the parity flag is an integer, the velocity tuple's first three entries are numbers), and a malformed `data` value that would make the source raise is not modelled.
- The record's setters, `touch`, and the registry's queries mutate or read objects in place in the source. Here they are pure functions returning the new value, and `CleanupOldAircraft` is a method returning the pruned registry.
- `SeenAircraft.Apply`: its own contract only says that the address and creation time are kept. Its per-category effect is stated by the `*Effect` lemmas and `SeenAircraft.ApplyCount`.

=== FILE: adsb_decoder.dfy ===
/** `decode_message`: strips the `*…;` framing from a received line and
    classifies the frame by downlink format (DF) and, for the extended
    squitters DF 17 and 18, by type code (TC). The DF and TC numbers are
    those of ICAO Annex 10, Volume IV and RTCA DO-260B; the category labels
    and which reads each branch makes are this decoder's own. The bit-level
    field extraction is done by the pyModeS library; here each of its calls
    is a given function of the stripped frame text that returns a value or
    raises. */
module AdsbDecoder {
  import opened Common
  import opened DecodedMessage

  /** The outcome of one library call: a value, or an exception, flagged when
      it is an `AttributeError` (the only kind some call sites tolerate). */
  datatype Call<+T> = Returns(value: T) | Raises(attributeError: bool) {
    predicate IsFailure() { Raises? }

    function PropagateFailure<U>(): Call<U>
      requires Raises?
    {
      Raises(attributeError)
    }

    function Extract(): T
      requires Returns?
    {
      value
    }
  }

  /** The velocity tuple the library returns: its length and its entries
      (speed, heading or track, vertical rate, and a text tag such as "GS"),
      only the first `arity` of which exist. */
  datatype VelocityTuple = VelocityTuple(
    arity: nat,
    speed: Option<real>,
    heading: Option<real>,
    verticalRate: Option<real>,
    tag: Option<string>)

  /** The pyModeS calls `decode_message` makes, each a function of the
      stripped frame text. */
  datatype ModeS = ModeS(
    df: string -> Call<int>,
    icao: string -> Call<Address>,
    typecode: string -> Call<int>,
    callsign: string -> Call<Option<string>>,
    altitude: string -> Call<Option<int>>,
    oeFlag: string -> Call<int>,
    velocity: string -> Call<Option<VelocityTuple>>,
    emergencyState: string -> Call<int>,
    emergencySquawk: string -> Call<string>,
    altcode: string -> Call<Option<int>>,
    idcode: string -> Call<string>)

  /** The result dictionary, or the error dictionary (whose only key is
      "error"; its text names the frame and, when it can be read, the DF). */
  datatype DecodeResult =
    | Decoded(msg: string, df: int, icao: Address, typecode: Option<int>, msgType: Category, data: Data)
    | DecodeError(msg: string, errorDf: Option<int>)

  /** Removes one leading `*` and then one trailing `;`, if present. */
  function StripFraming(line: string): (s: string)
    ensures |line| - 2 <= |s| <= |line|
    ensures |line| > 0 && line[0] == '*' ==> 1 + |s| <= |line| && s == line[1..1 + |s|]
    ensures !(|line| > 0 && line[0] == '*') ==> s == line[..|s|]
    ensures var a := if |line| > 0 && line[0] == '*' then 1 else 0;
            |s| < |line| - a ==> line[|line| - 1] == ';'
    ensures var a := if |line| > 0 && line[0] == '*' then 1 else 0;
            |line| > a && line[|line| - 1] == ';' ==> |s| == |line| - a - 1
  {
    var unstarred := if |line| > 0 && line[0] == '*' then line[1..] else line;
    if |unstarred| > 0 && unstarred[|unstarred| - 1] == ';' then unstarred[..|unstarred| - 1] else unstarred
  }

  /** Framing a frame and stripping it gives the frame back, whatever its text. */
  lemma FramingRoundTrip(s: string)
    ensures StripFraming("*" + s + ";") == s
  {
    var line := "*" + s + ";";
    assert line[1..] == s + ";";
    assert (s + ";")[..|s|] == s;
  }

  /** A line without the markers is left alone, and only one marker is
      removed at each end. */
  lemma FramingRemovesOneMarkerEach(s: string)
    ensures (|s| == 0 || (s[0] != '*' && s[|s| - 1] != ';')) ==> StripFraming(s) == s
    ensures StripFraming("**" + s + ";;") == "*" + s + ";"
  {
    var line := "**" + s + ";;";
    assert line[1..] == "*" + s + ";;";
    assert ("*" + s + ";;")[..|s| + 2] == "*" + s + ";";
  }

  /** The category of an extended squitter by type code. */
  function AdsbCategory(tc: int): (c: Category)
    ensures c == Identity <==> 1 <= tc <= 4
    ensures c == SurfacePosition <==> 5 <= tc <= 8
    ensures c == Position <==> 9 <= tc <= 18
    ensures c == Velocity <==> tc == 19
    ensures c == PositionGnss <==> 20 <= tc <= 22
    ensures c == Status <==> tc == 28
    ensures c == TargetState <==> tc == 29
    ensures c == OperationStatus <==> tc == 31
    ensures c == AdsbOther <==> tc < 1 || 23 <= tc <= 27 || tc == 30 || tc > 31
  {
    if 1 <= tc <= 4 then Identity
    else if 5 <= tc <= 8 then SurfacePosition
    else if 9 <= tc <= 18 then Position
    else if tc == 19 then Velocity
    else if 20 <= tc <= 22 then PositionGnss
    else if tc == 28 then Status
    else if tc == 29 then TargetState
    else if tc == 31 then OperationStatus
    else AdsbOther
  }

  /** The category of any other downlink format. */
  function ReplyCategory(df: int): (c: Category)
    ensures c == ShortAcas <==> df == 0
    ensures c == SurveillanceAlt <==> df == 4
    ensures c == SurveillanceIdentity <==> df == 5
    ensures c == AllCall <==> df == 11
    ensures c == LongAcas <==> df == 16
    ensures c == CommbAlt <==> df == 20 || df == 21
    ensures c == UnknownDf <==> df !in {0, 4, 5, 11, 16, 20, 21}
  {
    if df == 0 then ShortAcas
    else if df == 4 then SurveillanceAlt
    else if df == 5 then SurveillanceIdentity
    else if df == 11 then AllCall
    else if df == 16 then LongAcas
    else if df == 20 || df == 21 then CommbAlt
    else UnknownDf
  }

  /** `"odd" if flag else "even"`. */
  function FrameType(flag: int): string
  {
    if flag != 0 then "odd" else "even"
  }

  /** A call whose exceptions the source swallows: `Returns(None)` for a
      swallowed exception. `catchAll` tolerates every exception, otherwise
      only an `AttributeError` is tolerated. */
  function Tolerate<T>(c: Call<T>, catchAll: bool): (r: Call<Option<T>>)
    ensures c.Returns? ==> r == Returns(Some(c.value))
    ensures c.Raises? && (catchAll || c.attributeError) ==> r == Returns(None)
    ensures c.Raises? && !catchAll && !c.attributeError ==> r.Raises?
  {
    match c
    case Returns(v) => Returns(Some(v))
    case Raises(attributeError) => if catchAll || attributeError then Returns(None) else Raises(attributeError)
  }

  /** A data entry that is written only when the value is not `None`. */
  function IfGiven<T>(v: Option<T>): (f: Field<T>)
    ensures f.Present? <==> v.Some?
    ensures f.Present? ==> f.value == v.value
  {
    match v
    case None => Absent
    case Some(x) => Present(x)
  }

  /** The "data" of a position frame: the altitude when one was read (never
      for a surface frame), the CPR parity flag and its text. */
  function PositionData(altitude: Option<int>, flag: int): Data
  {
    NoData.(altitude := if altitude.Some? then Present(altitude) else Absent,
            cprOddFlag := Present(flag), cprFrameType := Present(FrameType(flag)))
  }

  /** The "data" of a velocity frame. */
  function VelocityData(v: Option<VelocityTuple>): Data
  {
    if v.Some? && v.value.arity >= 3 then
      var t := v.value;
      NoData.(speed := if t.speed.Some? then Present(t.speed) else Absent,
              heading := if t.heading.Some? then Present(t.heading) else Absent,
              verticalRate := if t.verticalRate.Some? then Present(t.verticalRate) else Absent,
              velocityType := if t.arity >= 4 && TruthyText(t.tag) then Present(t.tag) else Absent)
    else NoData
  }

  /** The category and data of an extended squitter with type code `tc`. */
  function AdsbBody(msg: string, tc: int, lib: ModeS): Call<(Category, Data)>
  {
    var c := AdsbCategory(tc);
    if c == Identity then
      var cs :- lib.callsign(msg);
      Returns((c, if TruthyText(cs) then NoData.(callsign := Present(Some(Strip(cs.value)))) else NoData))
    else if c == SurfacePosition then
      var flag :- lib.oeFlag(msg);
      Returns((c, PositionData(None, flag)))
    else if c == Position || c == PositionGnss then
      var altitude :- lib.altitude(msg);
      var flag :- lib.oeFlag(msg);
      Returns((c, PositionData(altitude, flag)))
    else if c == Velocity then
      var v :- lib.velocity(msg);
      Returns((c, VelocityData(v)))
    else if c == Status then
      var state :- Tolerate(lib.emergencyState(msg), false);
      var squawk :- Tolerate(lib.emergencySquawk(msg), false);
      Returns((c, NoData.(emergencyState := IfGiven(state), emergencySquawk := IfGiven(squawk))))
    else if c == AdsbOther then
      Returns((c, NoData.(typecode := Present(tc))))
    else
      Returns((c, NoData))
  }

  /** The category and data of a reply in any other downlink format. */
  function ReplyBody(msg: string, df: int, lib: ModeS): Call<(Category, Data)>
  {
    var c := ReplyCategory(df);
    if c == SurveillanceAlt then
      var altitude :- Tolerate(lib.altcode(msg), true);
      Returns((c, NoData.(altitude := IfGiven(altitude))))
    else if c == SurveillanceIdentity then
      var squawk :- Tolerate(lib.idcode(msg), true);
      Returns((c, NoData.(squawk := IfGiven(squawk))))
    else if c == UnknownDf then
      Returns((c, NoData.(df := Present(df))))
    else if c == AllCall then
      Returns((c, NoData))
    else
      var altitude :- lib.altcode(msg);
      Returns((c, NoData.(altitude := Present(altitude))))
  }

  /** The body of the `try` block: any exception it lets escape ends up as
      an error dictionary. */
  function Classify(msg: string, lib: ModeS): Call<DecodeResult>
  {
    var df :- lib.df(msg);
    var icao :- lib.icao(msg);
    if df == 17 || df == 18 then
      var tc :- lib.typecode(msg);
      var body :- AdsbBody(msg, tc, lib);
      Returns(Decoded(msg, df, icao, Some(tc), body.0, body.1))
    else
      var body :- ReplyBody(msg, df, lib);
      Returns(Decoded(msg, df, icao, None, body.0, body.1))
  }

  /** A call the source guards with `except AttributeError`: it succeeds, or
      it fails in the one way that is swallowed. */
  predicate Survives<T>(c: Call<T>)
  {
    c.Returns? || c.attributeError
  }

  /** Every unguarded library call an extended squitter with type code `tc`
      meets returns: the callsign for TC 1-4, the parity flag for TC 5-8, the
      altitude and the parity flag for TC 9-18 and 20-22, the velocity for TC
      19, and for TC 28 each emergency call returns or lacks its function. */
  predicate SquitterCallsReturn(msg: string, tc: int, lib: ModeS)
  {
    && (1 <= tc <= 4 ==> lib.callsign(msg).Returns?)
    && (5 <= tc <= 8 ==> lib.oeFlag(msg).Returns?)
    && ((9 <= tc <= 18 || 20 <= tc <= 22) ==> lib.altitude(msg).Returns? && lib.oeFlag(msg).Returns?)
    && (tc == 19 ==> lib.velocity(msg).Returns?)
    && (tc == 28 ==> Survives(lib.emergencyState(msg)) && Survives(lib.emergencySquawk(msg)))
  }

  /** Every library call outside a swallowing `try` on the frame's path
      returns: DF and address always; then the type code and the squitter's
      calls for DF 17/18; `altcode` for DF 0, 16, 20 and 21 (the DF 4 and
      DF 5 reads are guarded by a catch-all); nothing more for other DFs. */
  predicate PathSucceeds(msg: string, lib: ModeS)
  {
    && lib.df(msg).Returns?
    && lib.icao(msg).Returns?
    && var df := lib.df(msg).value;
       if df == 17 || df == 18 then
         lib.typecode(msg).Returns? && SquitterCallsReturn(msg, lib.typecode(msg).value, lib)
       else
         df in {0, 16, 20, 21} ==> lib.altcode(msg).Returns?
  }

  /** `decode_message`: never raises; every failure becomes the error
      dictionary, which reports the DF when the library can still read it. */
  function DecodeMessage(line: string, lib: ModeS): (r: DecodeResult)
    ensures r.msg == StripFraming(line)
    ensures r.Decoded? <==> PathSucceeds(r.msg, lib)
    ensures r.Decoded? ==> lib.df(r.msg) == Returns(r.df) && lib.icao(r.msg) == Returns(r.icao)
    ensures r.DecodeError? ==> r.errorDf == (if lib.df(r.msg).Returns? then Some(lib.df(r.msg).value) else None)
    ensures lib.df(r.msg).Raises? || lib.icao(r.msg).Raises? ==> r.DecodeError?
    ensures r.Decoded? ==> r.typecode.Some? == (r.df == 17 || r.df == 18)
    ensures r.Decoded? && r.typecode.Some? ==> lib.typecode(r.msg) == Returns(r.typecode.value)
    ensures r.Decoded? && r.typecode.Some? ==> r.msgType == AdsbCategory(r.typecode.value)
    ensures r.Decoded? && r.typecode.None? ==> r.msgType == ReplyCategory(r.df)
  {
    var msg := StripFraming(line);
    match Classify(msg, lib)
    case Returns(r) => r
    case Raises(_) => DecodeError(msg, if lib.df(msg).Returns? then Some(lib.df(msg).value) else None)
  }

  /** Every airborne or surface position result carries the CPR parity flag,
      and its frame-type text is "odd" exactly when the flag is set. A
      surface position never carries an altitude; an airborne one carries
      the altitude the library read, when it read one. */
  lemma PositionResultShape(line: string, lib: ModeS)
    ensures var r := DecodeMessage(line, lib);
            r.Decoded? && r.msgType in {SurfacePosition, Position, PositionGnss} ==>
              && lib.oeFlag(r.msg) == Returns(r.data.cprOddFlag.value)
              && r.data.cprOddFlag.Present?
              && r.data.cprFrameType.Present?
              && (r.data.cprFrameType.value == "odd" <==> r.data.cprOddFlag.value != 0)
              && (r.msgType == SurfacePosition ==> r.data.altitude.Absent?)
              && (r.msgType != SurfacePosition ==>
                    lib.altitude(r.msg).Returns?
                    && (r.data.altitude.Present? <==> lib.altitude(r.msg).value.Some?)
                    && (r.data.altitude.Present? ==> r.data.altitude.value == lib.altitude(r.msg).value))
  {
  }

  /** A velocity result holds speed, heading and vertical rate only when the
      library's tuple has at least three entries and that entry is not
      `None`, and the velocity type only when the tuple has a fourth, truthy,
      entry. No velocity key is ever written with `None`. */
  lemma VelocityResultShape(line: string, lib: ModeS)
    ensures var r := DecodeMessage(line, lib);
            r.Decoded? && r.msgType == Velocity ==>
              lib.velocity(r.msg).Returns? &&
              var v := lib.velocity(r.msg).value;
              var full := v.Some? && v.value.arity >= 3;
              && (r.data.speed.Present? <==> full && v.value.speed.Some?)
              && (r.data.heading.Present? <==> full && v.value.heading.Some?)
              && (r.data.verticalRate.Present? <==> full && v.value.verticalRate.Some?)
              && (r.data.velocityType.Present? <==> full && v.value.arity >= 4 && TruthyText(v.value.tag))
              && (r.data.speed.Present? ==> r.data.speed.value == v.value.speed && r.data.speed.value.Some?)
              && (r.data.heading.Present? ==> r.data.heading.value == v.value.heading && r.data.heading.value.Some?)
              && (r.data.verticalRate.Present? ==>
                    r.data.verticalRate.value == v.value.verticalRate && r.data.verticalRate.value.Some?)
              && (r.data.velocityType.Present? ==> r.data.velocityType.value == v.value.tag)
  {
  }

  /** An identity result carries a callsign exactly when the library
      returned a non-empty one, and then carries it stripped of surrounding
      whitespace (which may leave it empty). */
  lemma IdentityResultShape(line: string, lib: ModeS)
    ensures var r := DecodeMessage(line, lib);
            r.Decoded? && r.msgType == Identity ==>
              && lib.callsign(r.msg).Returns?
              && (r.data.callsign.Present? <==> TruthyText(lib.callsign(r.msg).value))
              && (r.data.callsign.Present? ==> r.data.callsign.value == Some(Strip(lib.callsign(r.msg).value.value)))
  {
  }

  /** The replies of other downlink formats: the ACAS and Comm-B replies
      always carry an "altitude" key (possibly `None`), a DF 4 reply carries
      the altitude and a DF 5 reply the squawk whenever the library reads
      one, a status squitter carries the emergency fields the library
      returns, an unknown DF reports itself, and an unrecognised type code
      is reported too. */
  lemma ReplyResultShape(line: string, lib: ModeS)
    ensures var r := DecodeMessage(line, lib);
            && (r.Decoded? && r.msgType in {ShortAcas, LongAcas, CommbAlt} ==>
                  r.data.altitude == Present(lib.altcode(r.msg).value))
            && (r.Decoded? && r.msgType == SurveillanceAlt && lib.altcode(r.msg).Returns? ==>
                  r.data.altitude == Present(lib.altcode(r.msg).value))
            && (r.Decoded? && r.msgType == SurveillanceIdentity && lib.idcode(r.msg).Returns? ==>
                  r.data.squawk == Present(lib.idcode(r.msg).value))
            && (r.Decoded? && r.msgType == Status && lib.emergencyState(r.msg).Returns? ==>
                  r.data.emergencyState == Present(lib.emergencyState(r.msg).value))
            && (r.Decoded? && r.msgType == Status && lib.emergencySquawk(r.msg).Returns? ==>
                  r.data.emergencySquawk == Present(lib.emergencySquawk(r.msg).value))
            && (r.Decoded? && r.msgType == UnknownDf ==> r.data.df == Present(r.df))
            && (r.Decoded? && r.msgType == AdsbOther ==> r.data.typecode == Present(r.typecode.value))
  {
  }

  /** Where the source swallows exceptions: an altitude that cannot be read
      from a DF 4 reply and a squawk that cannot be read from a DF 5 reply are
      simply left out, and so are emergency fields whose library functions are
      missing (`AttributeError`). An altitude that cannot be read from a DF 0
      reply is not swallowed and turns the whole frame into an error. */
  lemma ExceptionHandling(line: string, lib: ModeS)
    ensures var msg := StripFraming(line);
            var r := DecodeMessage(line, lib);
            lib.df(msg).Returns? && lib.icao(msg).Returns? ==>
              && (lib.df(msg).value == 4 && lib.altcode(msg).Raises? ==>
                    r.Decoded? && r.msgType == SurveillanceAlt && r.data.altitude.Absent?)
              && (lib.df(msg).value == 5 && lib.idcode(msg).Raises? ==>
                    r.Decoded? && r.msgType == SurveillanceIdentity && r.data.squawk.Absent?)
              && (lib.df(msg).value == 0 && lib.altcode(msg).Raises? ==>
                    r == DecodeError(msg, Some(0)))
              && (lib.df(msg).value == 17 && lib.typecode(msg) == Returns(28)
                  && lib.emergencyState(msg) == Raises(true) && lib.emergencySquawk(msg) == Raises(true) ==>
                    r.Decoded? && r.msgType == Status && r.data == NoData)
  {
  }
}

=== FILE: aircraft_state.dfy ===
/** The per-aircraft record (`AircraftState` in the source): identity,
    position and velocity fields that start out unknown, a message counter and
    last-seen time, and the two CPR buffers from which an airborne position is
    resolved once an even and an odd frame have arrived close together. The
    file of the same name under `stream1090/` is an identical copy and is
    modelled by this same module. */
module AircraftState {
  import opened Common

  /** The two frames of a CPR pair must have been captured less than ten
      seconds apart for the position to be resolved. */
  const PairingWindow: Micros := 10 * MicrosPerSecond

  /** One buffered position frame: its raw hex text and when it was captured. */
  datatype CprFrame = CprFrame(frame: string, capturedAt: Micros)

  /** What the global CPR decode of the library answers for an even/odd pair:
      a position, `None`, or an exception. */
  datatype Resolution = Fix(lat: real, lon: real) | NoFix | Raised

  /** The library's global CPR decode, given (even frame, odd frame, even
      capture time, odd capture time). Its arithmetic is not part of this model. */
  type Resolver = (string, string, Micros, Micros) -> Resolution

  datatype Aircraft = Aircraft(
    icao: Address,
    callsign: Option<string>,
    lat: Option<real>,
    lon: Option<real>,
    alt: Option<int>,
    speed: Option<real>,
    heading: Option<real>,
    verticalRate: Option<real>,
    velocityType: Option<string>,
    even: Option<CprFrame>,
    odd: Option<CprFrame>,
    firstSeen: Micros,
    lastSeen: Micros,
    messageCount: int)

  /** The fields of a record that messages can change (besides the
      bookkeeping pair `lastSeen`/`messageCount`). */
  datatype Attr =
    | Callsign | Lat | Lon | Alt | Speed | Heading | VerticalRate | VelocityType | EvenFrame | OddFrame

  /** `b` agrees with `a` on its identity, its creation time and every
      attribute outside `changed`. */
  predicate AgreeExcept(a: Aircraft, b: Aircraft, changed: set<Attr>)
  {
    && a.icao == b.icao
    && a.firstSeen == b.firstSeen
    && (Callsign !in changed ==> a.callsign == b.callsign)
    && (Lat !in changed ==> a.lat == b.lat)
    && (Lon !in changed ==> a.lon == b.lon)
    && (Alt !in changed ==> a.alt == b.alt)
    && (Speed !in changed ==> a.speed == b.speed)
    && (Heading !in changed ==> a.heading == b.heading)
    && (VerticalRate !in changed ==> a.verticalRate == b.verticalRate)
    && (VelocityType !in changed ==> a.velocityType == b.velocityType)
    && (EvenFrame !in changed ==> a.even == b.even)
    && (OddFrame !in changed ==> a.odd == b.odd)
  }

  /** `b` is `a` after one counted message received at `now`. */
  predicate Bumped(a: Aircraft, b: Aircraft, now: Micros)
  {
    b.lastSeen == now && b.messageCount == a.messageCount + 1
  }

  /** Whether the record holds a value for attribute `f`. */
  predicate Has(a: Aircraft, f: Attr)
  {
    match f
    case Callsign => a.callsign.Some?
    case Lat => a.lat.Some?
    case Lon => a.lon.Some?
    case Alt => a.alt.Some?
    case Speed => a.speed.Some?
    case Heading => a.heading.Some?
    case VerticalRate => a.verticalRate.Some?
    case VelocityType => a.velocityType.Some?
    case EvenFrame => a.even.Some?
    case OddFrame => a.odd.Some?
  }

  /** The attributes a record must hold before it is published: identity,
      a full position and the three velocity components. The velocity type
      and the CPR buffers are not among them. */
  const Required: set<Attr> := {Callsign, Lat, Lon, Alt, Speed, Heading, VerticalRate}

  /** `is_complete`. */
  predicate IsComplete(a: Aircraft)
  {
    && a.callsign.Some?
    && a.lat.Some? && a.lon.Some? && a.alt.Some?
    && a.speed.Some? && a.heading.Some? && a.verticalRate.Some?
  }

  /** Completeness is exactly "every required attribute is held"; in
      particular it never looks at the velocity type or the buffers. */
  lemma CompleteIffRequiredHeld(a: Aircraft)
    ensures IsComplete(a) <==> forall f :: f in Required ==> Has(a, f)
  {
    if !IsComplete(a) {
      if a.callsign.None? { assert !Has(a, Callsign); }
      else if a.lat.None? { assert !Has(a, Lat); }
      else if a.lon.None? { assert !Has(a, Lon); }
      else if a.alt.None? { assert !Has(a, Alt); }
      else if a.speed.None? { assert !Has(a, Speed); }
      else if a.heading.None? { assert !Has(a, Heading); }
      else { assert !Has(a, VerticalRate); }
    }
  }

  /** Position fields come as a pair, and only after both CPR buffers have
      been filled at least once. */
  predicate PositionPaired(a: Aircraft)
  {
    && (a.lat.Some? <==> a.lon.Some?)
    && (a.lat.Some? ==> a.even.Some? && a.odd.Some?)
  }

  /** Nothing about a record predates its creation: last sight and every
      buffered capture come at or after `firstSeen`. (How a capture orders
      against `lastSeen` depends on the separate clock readings of the
      position update, so it is not part of this invariant.) */
  predicate Chronological(a: Aircraft)
  {
    && a.firstSeen <= a.lastSeen
    && (a.even.Some? ==> a.firstSeen <= a.even.value.capturedAt)
    && (a.odd.Some? ==> a.firstSeen <= a.odd.value.capturedAt)
  }

  predicate Valid(a: Aircraft)
  {
    PositionPaired(a) && Chronological(a) && a.messageCount >= 1
  }

  /** `AircraftState(icao, callsign)` created at `now`: nothing known
      beyond the optional callsign, no buffered frame, counted once. */
  function New(icao: Address, callsign: Option<string>, now: Micros): (r: Aircraft)
    ensures r.icao == icao && r.callsign == callsign
    ensures forall f :: f in Required - {Callsign} ==> !Has(r, f)
    ensures !Has(r, VelocityType) && !Has(r, EvenFrame) && !Has(r, OddFrame)
    ensures r.messageCount == 1 && r.firstSeen == now && r.lastSeen >= r.firstSeen
    ensures Valid(r) && !IsComplete(r)
  {
    Aircraft(icao, callsign, None, None, None, None, None, None, None, None, None, now, now, 1)
  }

  /** `_update_timestamp` (and the public `touch`, which only calls it):
      one more counted message, seen at `now`, and nothing else changes. */
  function Touch(a: Aircraft, now: Micros): (r: Aircraft)
    ensures Bumped(a, r, now)
    ensures AgreeExcept(a, r, {})
  {
    a.(lastSeen := now, messageCount := a.messageCount + 1)
  }

  /** Both buffers hold a non-empty frame and their capture times are less
      than the pairing window apart: the condition under which the resolver
      is consulted. */
  predicate ReadyToResolve(even: Option<CprFrame>, odd: Option<CprFrame>)
  {
    && even.Some? && |even.value.frame| > 0
    && odd.Some? && |odd.value.frame| > 0
    && -PairingWindow < even.value.capturedAt - odd.value.capturedAt < PairingWindow
  }

  /** What the resolver answers for the buffered pair. */
  function Consult(resolve: Resolver, even: CprFrame, odd: CprFrame): Resolution
  {
    resolve(even.frame, odd.frame, even.capturedAt, odd.capturedAt)
  }

  /** The record after a position update, and whether a position was written. */
  datatype PositionUpdate = PositionUpdate(aircraft: Aircraft, decoded: bool)

  /** `update_position_from_message`: take the altitude if one is given,
      count the message, overwrite the buffer of the frame's parity, and, if
      the two buffers now form a pair inside the window, ask the resolver;
      a fix sets latitude and longitude together. */
  function UpdatePosition(a: Aircraft, rawMsg: string, altitude: Option<int>, cprOdd: bool,
                          now: Micros, resolve: Resolver): (u: PositionUpdate)
    ensures Bumped(a, u.aircraft, now)
    ensures AgreeExcept(a, u.aircraft, {Alt, Lat, Lon, EvenFrame, OddFrame})
    ensures u.aircraft.alt == (if altitude.Some? then altitude else a.alt)
    ensures cprOdd ==> u.aircraft.odd == Some(CprFrame(rawMsg, now)) && u.aircraft.even == a.even
    ensures !cprOdd ==> u.aircraft.even == Some(CprFrame(rawMsg, now)) && u.aircraft.odd == a.odd
    ensures u.decoded <==>
              ReadyToResolve(u.aircraft.even, u.aircraft.odd)
              && Consult(resolve, u.aircraft.even.value, u.aircraft.odd.value).Fix?
    ensures u.decoded ==>
              var fix := Consult(resolve, u.aircraft.even.value, u.aircraft.odd.value);
              u.aircraft.lat == Some(fix.lat) && u.aircraft.lon == Some(fix.lon)
    ensures !u.decoded ==> u.aircraft.lat == a.lat && u.aircraft.lon == a.lon
  {
    var withAlt := if altitude.Some? then a.(alt := altitude) else a;
    var counted := Touch(withAlt, now);
    var buffered :=
      if cprOdd then counted.(odd := Some(CprFrame(rawMsg, now)))
      else counted.(even := Some(CprFrame(rawMsg, now)));
    if ReadyToResolve(buffered.even, buffered.odd) then
      match Consult(resolve, buffered.even.value, buffered.odd.value)
      case Fix(lat, lon) => PositionUpdate(buffered.(lat := Some(lat), lon := Some(lon)), true)
      case _ => PositionUpdate(buffered, false)
    else
      PositionUpdate(buffered, false)
  }

  /** The `callsign` setter: `None` and `""` are ignored outright (not even
      counted); any other value is stored and counted. */
  function SetCallsign(a: Aircraft, value: Option<string>, now: Micros): (r: Aircraft)
    ensures TruthyText(value) ==> r.callsign == value && Bumped(a, r, now) && AgreeExcept(a, r, {Callsign})
    ensures !TruthyText(value) ==> r == a
  {
    if TruthyText(value) then Touch(a.(callsign := value), now) else a
  }

  /** The `speed` setter: stores its argument, even `None`, and counts. */
  function SetSpeed(a: Aircraft, value: Option<real>, now: Micros): (r: Aircraft)
    ensures r.speed == value && Bumped(a, r, now) && AgreeExcept(a, r, {Speed})
  {
    Touch(a.(speed := value), now)
  }

  /** The `heading` setter: stores its argument, even `None`, and counts. */
  function SetHeading(a: Aircraft, value: Option<real>, now: Micros): (r: Aircraft)
    ensures r.heading == value && Bumped(a, r, now) && AgreeExcept(a, r, {Heading})
  {
    Touch(a.(heading := value), now)
  }

  /** The `vertical_rate` setter: stores its argument, even `None`, and counts. */
  function SetVerticalRate(a: Aircraft, value: Option<real>, now: Micros): (r: Aircraft)
    ensures r.verticalRate == value && Bumped(a, r, now) && AgreeExcept(a, r, {VerticalRate})
  {
    Touch(a.(verticalRate := value), now)
  }

  /** The `velocity_type` setter: stores its argument, even `None`, and counts. */
  function SetVelocityType(a: Aircraft, value: Option<string>, now: Micros): (r: Aircraft)
    ensures r.velocityType == value && Bumped(a, r, now) && AgreeExcept(a, r, {VelocityType})
  {
    Touch(a.(velocityType := value), now)
  }

  /** A position is written only when the pair that is buffered after the
      update is inside the window; a frame of one parity alone never yields
      a position, whatever the resolver would say. */
  lemma PositionNeedsBothParities(a: Aircraft, rawMsg: string, altitude: Option<int>, cprOdd: bool,
                                  now: Micros, resolve: Resolver)
    requires (if cprOdd then a.even else a.odd).None?
    ensures !UpdatePosition(a, rawMsg, altitude, cprOdd, now, resolve).decoded
    ensures UpdatePosition(a, rawMsg, altitude, cprOdd, now, resolve).aircraft.lat == a.lat
  {
  }

  /** Two frames captured ten seconds or more apart are never resolved, even
      if the resolver would produce a position. */
  lemma StalePartnerNotResolved(a: Aircraft, rawMsg: string, altitude: Option<int>, cprOdd: bool,
                                now: Micros, resolve: Resolver)
    requires var partner := if cprOdd then a.even else a.odd;
             partner.Some? && (now - partner.value.capturedAt >= PairingWindow
                               || partner.value.capturedAt - now >= PairingWindow)
    ensures !UpdatePosition(a, rawMsg, altitude, cprOdd, now, resolve).decoded
  {
  }

  /** Every operation of the record keeps it valid, provided the clock does
      not run backwards. */
  lemma UpdatePositionKeepsValid(a: Aircraft, rawMsg: string, altitude: Option<int>, cprOdd: bool,
                                 now: Micros, resolve: Resolver)
    requires Valid(a) && a.lastSeen <= now
    ensures Valid(UpdatePosition(a, rawMsg, altitude, cprOdd, now, resolve).aircraft)
  {
  }

  /** Whether a message's effect on a record clears a field that completeness
      needs: only a velocity setter given `None` can. Every other update
      leaves a complete record complete. */
  lemma CompletenessSurvivesUpdates(a: Aircraft, now: Micros, rawMsg: string, altitude: Option<int>,
                                    cprOdd: bool, resolve: Resolver, text: Option<string>, x: real)
    requires IsComplete(a)
    ensures IsComplete(Touch(a, now))
    ensures IsComplete(SetCallsign(a, text, now))
    ensures IsComplete(UpdatePosition(a, rawMsg, altitude, cprOdd, now, resolve).aircraft)
    ensures IsComplete(SetSpeed(a, Some(x), now)) && IsComplete(SetHeading(a, Some(x), now))
    ensures IsComplete(SetVerticalRate(a, Some(x), now)) && IsComplete(SetVelocityType(a, text, now))
  {
  }

  /** ... whereas a velocity setter given `None` revokes completeness. */
  lemma VelocityNoneRevokesCompleteness(a: Aircraft, now: Micros)
    requires IsComplete(a)
    ensures !IsComplete(SetSpeed(a, None, now))
    ensures !IsComplete(SetHeading(a, None, now))
    ensures !IsComplete(SetVerticalRate(a, None, now))
  {
  }

  /** The position block of `to_dict`. */
  datatype PositionBlock = PositionBlock(latitude: Option<real>, longitude: Option<real>, altitudeFt: Option<int>)

  /** The velocity block of `to_dict`. */
  datatype VelocityBlock = VelocityBlock(groundSpeedKts: Option<real>, headingDeg: Option<real>,
                                         verticalRateFpm: Option<real>, velocityType: Option<string>)

  /** `to_dict` without its text formatting: the published shape of a record. */
  datatype Snapshot = Snapshot(
    icao: Address,
    timestamp: Micros,
    callsign: Option<string>,
    position: Option<PositionBlock>,
    velocity: Option<VelocityBlock>,
    firstSeen: Micros,
    lastSeen: Micros,
    messageCount: int)

  /** `to_dict`: each block is shown when at least one of its values is
      truthy, so a value of zero counts as absent here. */
  function ToDict(a: Aircraft): (s: Snapshot)
    ensures s.icao == a.icao && s.callsign == a.callsign && s.timestamp == a.lastSeen
    ensures s.firstSeen == a.firstSeen && s.lastSeen == a.lastSeen && s.messageCount == a.messageCount
    ensures s.position.Some? <==> TruthyReal(a.lat) || TruthyReal(a.lon) || TruthyInt(a.alt)
    ensures s.position.Some? ==> s.position.value == PositionBlock(a.lat, a.lon, a.alt)
    ensures s.velocity.Some? <==>
              TruthyReal(a.speed) || TruthyReal(a.heading) || TruthyReal(a.verticalRate) || TruthyText(a.velocityType)
    ensures s.velocity.Some? ==> s.velocity.value == VelocityBlock(a.speed, a.heading, a.verticalRate, a.velocityType)
  {
    var position :=
      if TruthyReal(a.lat) || TruthyReal(a.lon) || TruthyInt(a.alt)
      then Some(PositionBlock(a.lat, a.lon, a.alt)) else None;
    var velocity :=
      if TruthyReal(a.speed) || TruthyReal(a.heading) || TruthyReal(a.verticalRate) || TruthyText(a.velocityType)
      then Some(VelocityBlock(a.speed, a.heading, a.verticalRate, a.velocityType)) else None;
    Snapshot(a.icao, a.lastSeen, a.callsign, position, velocity, a.firstSeen, a.lastSeen, a.messageCount)
  }

  /** A complete record is not always published with its position: one
      standing at latitude 0, longitude 0 and altitude 0 has every position
      field set, yet its snapshot shows no position block. */
  lemma ZeroPositionHidden(a: Aircraft)
    requires IsComplete(a)
    requires a.lat == Some(0.0) && a.lon == Some(0.0) && a.alt == Some(0)
    ensures ToDict(a).position.None?
  {
  }
}

=== FILE: common.dfy ===
/** Python-level notions the aircraft tracker relies on: optional values,
    dictionary entries that may be missing, truthiness, `str.strip()`, and the
    clock. */
module Common {

  /** A Python value that may be `None`. */
  datatype Option<+T> = None | Some(value: T)

  /** One entry of a Python dict: the key is missing, or present with a value
      (which for `Field<Option<T>>` may itself be `None`). */
  datatype Field<+T> = Absent | Present(value: T)

  /** `d.get(key)`: a missing key and a key holding `None` read alike. */
  function Get<T>(f: Field<Option<T>>): (r: Option<T>)
    ensures r.Some? <==> f.Present? && f.value.Some?
    ensures r.Some? ==> f == Present(r)
  {
    match f
    case Absent => None
    case Present(v) => v
  }

  /** `d.get(key, default)`. */
  function GetOr<T>(f: Field<T>, default: T): (r: T)
    ensures f.Absent? ==> r == default
    ensures f.Present? ==> r == f.value
  {
    match f
    case Absent => default
    case Present(v) => v
  }

  /** Truthiness of an optional text: `None` and `""` are false. */
  predicate TruthyText(s: Option<string>)
  {
    s.Some? && |s.value| > 0
  }

  /** Truthiness of an optional number: `None`, `0` and `0.0` are false. */
  predicate TruthyInt(n: Option<int>)
  {
    n.Some? && n.value != 0
  }

  predicate TruthyReal(x: Option<real>)
  {
    x.Some? && x.value != 0.0
  }

  /** Instants and durations, in microseconds (the resolution of Python's
      `datetime`). The clock is never read inside the model: every operation
      that the source timestamps with `datetime.now` takes `now` instead. */
  type Micros = int

  const MicrosPerSecond: Micros := 1_000_000

  /** The aircraft address stored under the key "icao". The decoding library
      yields `None` for downlink formats it cannot attribute to an address, and
      the registry then files that record under `None` like any other key. */
  type Address = Option<string>

  /** The characters for which Python's `str.isspace()` holds; `str.strip()`
      with no argument removes exactly these. */
  predicate IsSpace(c: char)
  {
    var n := c as int;
    || n == 0x20 || 0x09 <= n <= 0x0D || 0x1C <= n <= 0x1F
    || n == 0x85 || n == 0xA0 || n == 0x1680 || 0x2000 <= n <= 0x200A
    || n == 0x2028 || n == 0x2029 || n == 0x202F || n == 0x205F || n == 0x3000
  }

  /** Every character of `s` in `[lo, hi)` is whitespace. */
  predicate SpacesBetween(s: string, lo: int, hi: int)
    requires 0 <= lo && hi <= |s|
  {
    forall k :: lo <= k < hi ==> IsSpace(s[k])
  }

  /** The end of the run of whitespace that starts at `i`. */
  function SkipSpaces(s: string, i: nat): (j: nat)
    requires i <= |s|
    ensures i <= j <= |s|
    ensures SpacesBetween(s, i, j)
    ensures j < |s| ==> !IsSpace(s[j])
    decreases |s| - i
  {
    if i < |s| && IsSpace(s[i]) then SkipSpaces(s, i + 1) else i
  }

  /** The start of the run of whitespace that ends at `j`, not going below `lo`. */
  function SkipSpacesBack(s: string, lo: nat, j: nat): (i: nat)
    requires lo <= j <= |s|
    ensures lo <= i <= j
    ensures SpacesBetween(s, i, j)
    ensures i > lo ==> !IsSpace(s[i - 1])
    decreases j
  {
    if j > lo && IsSpace(s[j - 1]) then SkipSpacesBack(s, lo, j - 1) else j
  }

  /** Python's `s.strip()`: drop the whitespace at both ends of `s`. The
      result is the infix `s[StripStart(s)..StripEnd(s)]`. */
  function StripStart(s: string): (i: nat)
    ensures i <= |s|
    ensures SpacesBetween(s, 0, i)
  {
    SkipSpaces(s, 0)
  }

  function StripEnd(s: string): (j: nat)
    ensures StripStart(s) <= j <= |s|
    ensures SpacesBetween(s, j, |s|)
    ensures StripStart(s) < j ==> !IsSpace(s[StripStart(s)]) && !IsSpace(s[j - 1])
  {
    SkipSpacesBack(s, StripStart(s), |s|)
  }

  function Strip(s: string): (r: string)
    ensures |r| <= |s|
    ensures exists i, j :: 0 <= i <= j <= |s| && r == s[i..j] && SpacesBetween(s, 0, i) && SpacesBetween(s, j, |s|)
    ensures |r| > 0 ==> !IsSpace(r[0]) && !IsSpace(r[|r| - 1])
  {
    s[StripStart(s)..StripEnd(s)]
  }

  /** Stripping is idempotent. */
  lemma StripIdempotent(s: string)
    ensures Strip(Strip(s)) == Strip(s)
  {
    var r := Strip(s);
    assert StripStart(r) == 0;
    assert StripEnd(r) == |r|;
  }

  /** `s.strip()` is empty exactly when `s` is made of whitespace only. */
  lemma StripEmptyIffBlank(s: string)
    ensures Strip(s) == [] <==> SpacesBetween(s, 0, |s|)
  {
    var i, j := StripStart(s), StripEnd(s);
    if i == j {
      forall k | 0 <= k < |s| ensures IsSpace(s[k]) {
        if k < i { assert SpacesBetween(s, 0, i); } else { assert SpacesBetween(s, j, |s|); }
      }
    } else {
      assert !IsSpace(s[i]);
    }
  }
}

=== FILE: decoded_message.dfy ===
/** The dictionary that travels from the frame decoder to the registry:
    the message category under "msg_type", the stripped frame under "msg",
    the address under "icao", and the extracted fields under "data". */
module DecodedMessage {
  import opened Common

  /** The message categories the decoder emits. */
  datatype Category =
    | Identity | SurfacePosition | Position | Velocity | PositionGnss
    | Status | TargetState | OperationStatus | AdsbOther
    | ShortAcas | SurveillanceAlt | SurveillanceIdentity | AllCall | LongAcas | CommbAlt
    | UnknownDf

  /** The "msg_type" text of each category. */
  function Name(c: Category): string
  {
    match c
    case Identity => "identity"
    case SurfacePosition => "surface_position"
    case Position => "position"
    case Velocity => "velocity"
    case PositionGnss => "position_gnss"
    case Status => "status"
    case TargetState => "target_state"
    case OperationStatus => "operation_status"
    case AdsbOther => "adsb_other"
    case ShortAcas => "short_acas"
    case SurveillanceAlt => "surveillance_alt"
    case SurveillanceIdentity => "surveillance_identity"
    case AllCall => "all_call"
    case LongAcas => "long_acas"
    case CommbAlt => "commb_alt"
    case UnknownDf => "unknown_df"
  }

  /** Reads a "msg_type" value back as a category; `None` for a missing
      value or a text that names no category. */
  function Parse(s: Option<string>): (c: Option<Category>)
    ensures c.Some? ==> s == Some(Name(c.value))
    ensures c.None? ==> forall k: Category :: s != Some(Name(k))
  {
    if s.None? then None
    else
      var t := s.value;
      if t == "identity" then Some(Identity)
      else if t == "surface_position" then Some(SurfacePosition)
      else if t == "position" then Some(Position)
      else if t == "velocity" then Some(Velocity)
      else if t == "position_gnss" then Some(PositionGnss)
      else if t == "status" then Some(Status)
      else if t == "target_state" then Some(TargetState)
      else if t == "operation_status" then Some(OperationStatus)
      else if t == "adsb_other" then Some(AdsbOther)
      else if t == "short_acas" then Some(ShortAcas)
      else if t == "surveillance_alt" then Some(SurveillanceAlt)
      else if t == "surveillance_identity" then Some(SurveillanceIdentity)
      else if t == "all_call" then Some(AllCall)
      else if t == "long_acas" then Some(LongAcas)
      else if t == "commb_alt" then Some(CommbAlt)
      else if t == "unknown_df" then Some(UnknownDf)
      else None
  }

  /** Every category's name reads back as that category, so no two
      categories share a name. */
  lemma ParseName(c: Category)
    ensures Parse(Some(Name(c))) == Some(c)
  {
  }

  /** The "data" dictionary. Only the keys the decoder can write are
      modelled; each may be missing. */
  datatype Data = Data(
    callsign: Field<Option<string>>,
    altitude: Field<Option<int>>,
    cprOddFlag: Field<int>,
    cprFrameType: Field<string>,
    speed: Field<Option<real>>,
    heading: Field<Option<real>>,
    verticalRate: Field<Option<real>>,
    velocityType: Field<Option<string>>,
    squawk: Field<string>,
    emergencyState: Field<int>,
    emergencySquawk: Field<string>,
    typecode: Field<int>,
    df: Field<int>)

  /** `{}`. */
  const NoData: Data :=
    Data(Absent, Absent, Absent, Absent, Absent, Absent, Absent, Absent, Absent, Absent, Absent, Absent, Absent)

  /** A decoded-message dictionary as the registry reads it. A missing
      dictionary, an empty one, and an error dictionary all have no "icao"
      key. A missing "data" key reads as `NoData`. */
  datatype Message = Message(
    icao: Field<Address>,
    msgType: Option<string>,
    msg: Option<string>,
    data: Data)
}

=== FILE: histories.dfy ===
/** What the registry guarantees over a whole stream of messages: counter
    totals, the single-parity rule for positions, persistence of completeness
    and of record validity. */
module Histories {
  import opened Common
  import opened AircraftState
  import opened DecodedMessage
  import opened SeenAircraft

  /** One decoded message and the time it was processed. */
  datatype Arrival = Arrival(message: Message, at: Micros)

  /** Feeding a stream of messages to the registry, one at a time. */
  function Replay(reg: Registry, arrivals: seq<Arrival>, resolve: Resolver): Registry
    decreases |arrivals|
  {
    if |arrivals| == 0 then reg
    else Replay(Update(reg, arrivals[0].message, arrivals[0].at, resolve).registry, arrivals[1..], resolve)
  }

  predicate Addressed(arrival: Arrival, k: Address)
  {
    arrival.message.icao == Present(k)
  }

  /** Some message of the stream is addressed to `k`. */
  predicate Mentions(arrivals: seq<Arrival>, k: Address)
    decreases |arrivals|
  {
    |arrivals| > 0 && (Addressed(arrivals[0], k) || Mentions(arrivals[1..], k))
  }

  /** The sum of the counter increments of the messages addressed to `k`. */
  function TotalIncrement(arrivals: seq<Arrival>, k: Address): nat
    decreases |arrivals|
  {
    if |arrivals| == 0 then 0
    else (if Addressed(arrivals[0], k) then Increment(arrivals[0].message) else 0)
         + TotalIncrement(arrivals[1..], k)
  }

  /** The number of messages addressed to `k`. */
  function Occurrences(arrivals: seq<Arrival>, k: Address): nat
    decreases |arrivals|
  {
    if |arrivals| == 0 then 0
    else (if Addressed(arrivals[0], k) then 1 else 0) + Occurrences(arrivals[1..], k)
  }

  /** After a stream, `k` is tracked exactly when it was tracked before or
      some message named it, and its counter is its starting value (1 for a
      record created by the stream) plus the increments of its messages. */
  lemma {:induction false} ReplayCount(reg: Registry, arrivals: seq<Arrival>, resolve: Resolver, k: Address)
    ensures var final := Replay(reg, arrivals, resolve).aircraft;
            k in final <==> k in reg.aircraft || Mentions(arrivals, k)
    ensures var final := Replay(reg, arrivals, resolve).aircraft;
            k in final ==>
              final[k].messageCount
              == (if k in reg.aircraft then reg.aircraft[k].messageCount else 1) + TotalIncrement(arrivals, k)
    decreases |arrivals|
  {
    if |arrivals| > 0 {
      var first := arrivals[0];
      var next := Update(reg, first.message, first.at, resolve).registry;
      ReplayCount(next, arrivals[1..], resolve, k);
      if Addressed(first, k) {
        ApplyCount(Tracked(reg, k, first.at), first.message, first.at, resolve);
      }
    }
  }

  /** Every message addressed to `k` adds exactly one to its counter. */
  predicate CountedOnce(arrivals: seq<Arrival>, k: Address)
  {
    forall i :: 0 <= i < |arrivals| && Addressed(arrivals[i], k) ==> Increment(arrivals[i].message) == 1
  }

  /** When none of `k`'s messages is an identity message with an empty
      callsign or a velocity message with two or more keys, a record created
      by the stream has counted one plus the number of its messages. */
  lemma {:induction false} ReplayCountOnePerMessage(reg: Registry, arrivals: seq<Arrival>, resolve: Resolver, k: Address)
    requires k !in reg.aircraft && Mentions(arrivals, k)
    requires CountedOnce(arrivals, k)
    ensures k in Replay(reg, arrivals, resolve).aircraft
    ensures Replay(reg, arrivals, resolve).aircraft[k].messageCount == 1 + Occurrences(arrivals, k)
  {
    ReplayCount(reg, arrivals, resolve, k);
    TotalIsOccurrences(arrivals, k);
  }

  lemma {:induction false} TotalIsOccurrences(arrivals: seq<Arrival>, k: Address)
    requires CountedOnce(arrivals, k)
    ensures TotalIncrement(arrivals, k) == Occurrences(arrivals, k)
    decreases |arrivals|
  {
    if |arrivals| > 0 {
      assert CountedOnce(arrivals[1..], k) by {
        forall i | 0 <= i < |arrivals[1..]| && Addressed(arrivals[1..][i], k)
          ensures Increment(arrivals[1..][i].message) == 1
        {
          assert arrivals[1..][i] == arrivals[i + 1];
        }
      }
      TotalIsOccurrences(arrivals[1..], k);
    }
  }

  /** No message addressed to `k` carries a CPR frame of the given parity. */
  predicate NoFrameOfParity(arrivals: seq<Arrival>, k: Address, odd: bool)
  {
    forall i :: 0 <= i < |arrivals| && Addressed(arrivals[i], k) ==> !CarriesFrame(arrivals[i].message, odd)
  }

  /** One message for a record whose buffer of one parity is empty and that
      has no position, when the message carries no frame of that parity:
      the buffer stays empty and the position stays unknown. */
  lemma ApplyWithoutPartner(a: Aircraft, m: Message, now: Micros, resolve: Resolver, odd: bool)
    requires Buffer(a, odd).None? && a.lat.None? && a.lon.None?
    requires !CarriesFrame(m, odd)
    ensures var r := Apply(a, m, now, resolve);
            Buffer(r, odd).None? && r.lat.None? && r.lon.None?
  {
    ApplyKeepsOtherBuffer(a, m, now, resolve, odd);
    var cat := Parse(m.msgType);
    if cat == Some(Identity) {
      IdentityEffect(a, m, now, resolve);
    } else if cat.Some? && cat.value in PositionKinds {
      PositionEffect(a, m, now, resolve);
    } else if cat == Some(Velocity) {
      VelocityEffect(a, m, now, resolve);
    } else if cat.Some? && cat.value in AltitudeKinds {
      AltitudeEffect(a, m, now, resolve);
    } else {
      CountOnlyEffect(a, m, now, resolve);
    }
  }

  /** If the stream never brings `k` a frame of one parity, and `k` had no
      such frame and no position before, its position stays unknown for the
      whole stream, whatever the resolver would answer. */
  lemma {:induction false} ReplaySingleParity(reg: Registry, arrivals: seq<Arrival>, resolve: Resolver,
                                              k: Address, odd: bool)
    requires k in reg.aircraft ==>
               Buffer(reg.aircraft[k], odd).None? && reg.aircraft[k].lat.None? && reg.aircraft[k].lon.None?
    requires NoFrameOfParity(arrivals, k, odd)
    ensures var final := Replay(reg, arrivals, resolve).aircraft;
            k in final ==> Buffer(final[k], odd).None? && final[k].lat.None? && final[k].lon.None?
    decreases |arrivals|
  {
    if |arrivals| > 0 {
      var first := arrivals[0];
      var next := Update(reg, first.message, first.at, resolve).registry;
      if Addressed(first, k) {
        ApplyWithoutPartner(Tracked(reg, k, first.at), first.message, first.at, resolve, odd);
      }
      assert NoFrameOfParity(arrivals[1..], k, odd) by {
        forall i | 0 <= i < |arrivals[1..]| && Addressed(arrivals[1..][i], k)
          ensures !CarriesFrame(arrivals[1..][i].message, odd)
        {
          assert arrivals[1..][i] == arrivals[i + 1];
        }
      }
      ReplaySingleParity(next, arrivals[1..], resolve, k, odd);
    }
  }

  /** No message addressed to `k` assigns `None` to a velocity component. */
  predicate NeverClearsVelocity(arrivals: seq<Arrival>, k: Address)
  {
    forall i :: 0 <= i < |arrivals| && Addressed(arrivals[i], k) ==> !ClearsVelocity(arrivals[i].message)
  }

  /** Once complete, a record stays complete (and tracked) through any
      stream that never assigns `None` to one of its velocity components. */
  lemma {:induction false} ReplayKeepsCompleteness(reg: Registry, arrivals: seq<Arrival>, resolve: Resolver, k: Address)
    requires k in reg.aircraft && IsComplete(reg.aircraft[k])
    requires NeverClearsVelocity(arrivals, k)
    ensures k in Replay(reg, arrivals, resolve).aircraft
    ensures IsComplete(Replay(reg, arrivals, resolve).aircraft[k])
    decreases |arrivals|
  {
    if |arrivals| > 0 {
      var first := arrivals[0];
      var next := Update(reg, first.message, first.at, resolve).registry;
      if Addressed(first, k) {
        ApplyKeepsCompleteness(reg.aircraft[k], first.message, first.at, resolve);
      }
      assert NeverClearsVelocity(arrivals[1..], k) by {
        forall i | 0 <= i < |arrivals[1..]| && Addressed(arrivals[1..][i], k)
          ensures !ClearsVelocity(arrivals[1..][i].message)
        {
          assert arrivals[1..][i] == arrivals[i + 1];
        }
      }
      ReplayKeepsCompleteness(next, arrivals[1..], resolve, k);
    }
  }

  /** The stream is processed in time order, never before `start`. */
  predicate InOrderFrom(arrivals: seq<Arrival>, start: Micros)
  {
    forall i :: 0 <= i < |arrivals| ==> start <= arrivals[i].at && (i > 0 ==> arrivals[i - 1].at <= arrivals[i].at)
  }

  /** Fed in time order, the registry keeps every record valid: positions
      paired and only after both parities, nothing seen or captured before
      the record's creation, counters positive. */
  lemma {:induction false} ReplayKeepsValid(reg: Registry, arrivals: seq<Arrival>, resolve: Resolver, start: Micros)
    requires AllValid(reg) && SeenBy(reg, start)
    requires InOrderFrom(arrivals, start)
    ensures AllValid(Replay(reg, arrivals, resolve))
    decreases |arrivals|
  {
    if |arrivals| > 0 {
      var first := arrivals[0];
      assert SeenBy(reg, first.at);
      UpdateKeepsValid(reg, first.message, first.at, resolve);
      var next := Update(reg, first.message, first.at, resolve).registry;
      assert InOrderFrom(arrivals[1..], first.at) by {
        forall i | 0 <= i < |arrivals[1..]|
          ensures first.at <= arrivals[1..][i].at && (i > 0 ==> arrivals[1..][i - 1].at <= arrivals[1..][i].at)
        {
          assert arrivals[1..][i] == arrivals[i + 1];
          if i > 0 {
            assert arrivals[1..][i - 1] == arrivals[i];
          }
          OrderedPrefix(arrivals, start, i + 1);
        }
      }
      ReplayKeepsValid(next, arrivals[1..], resolve, first.at);
    }
  }

  /** In an ordered stream, the first arrival is no later than any other. */
  lemma {:induction false} OrderedPrefix(arrivals: seq<Arrival>, start: Micros, j: nat)
    requires InOrderFrom(arrivals, start) && 0 < j < |arrivals|
    ensures arrivals[0].at <= arrivals[j].at
    decreases j
  {
    if j > 1 {
      OrderedPrefix(arrivals, start, j - 1);
    }
  }

  /** A resolver that always finds the same position. */
  function ConstantFix(lat: real, lon: real): Resolver
  {
    (even: string, odd: string, evenAt: Micros, oddAt: Micros) => Fix(lat, lon)
  }

  function Flight(category: string, frame: string, data: Data): Message
  {
    Message(Present(Some("AA")), Some(category), Some(frame), data)
  }

  /** A new aircraft announces its callsign, sends an even and then an odd
      airborne frame two seconds apart, then a velocity frame with three
      components. The pair is resolved, the record becomes complete on the
      velocity frame and is returned then, and the counter reads 7: one at
      creation, one for the callsign, one per position frame and one per
      velocity component. */
  lemma PairingScenario(t0: Micros)
    ensures var resolve := ConstantFix(37.0, -122.0);
            var k: Address := Some("AA");
            var s1 := Update(Init(), Flight("identity", "F0", NoData.(callsign := Present(Some("UAL123")))), t0, resolve);
            var s2 := Update(s1.registry, Flight("position", "F1", NoData.(altitude := Present(Some(35000)), cprOddFlag := Present(0))), t0, resolve);
            var s3 := Update(s2.registry, Flight("position", "F2", NoData.(altitude := Present(Some(35000)), cprOddFlag := Present(1))), t0 + 2 * MicrosPerSecond, resolve);
            var s4 := Update(s3.registry, Flight("velocity", "F3", NoData.(speed := Present(Some(450.0)), heading := Present(Some(270.0)), verticalRate := Present(Some(0.0)))), t0 + 3 * MicrosPerSecond, resolve);
            && s1.registry.aircraft[k].messageCount == 2 && s1.emitted.None?
            && s2.registry.aircraft[k].lat.None? && s2.registry.aircraft[k].messageCount == 3
            && s3.registry.aircraft[k].lat == Some(37.0) && s3.registry.aircraft[k].lon == Some(-122.0)
            && s3.emitted.None?
            && s4.emitted == Some(s4.registry.aircraft[k])
            && s4.registry.aircraft[k].messageCount == 7
  {
    ParseName(Identity);
    ParseName(Position);
    ParseName(Velocity);
  }

  /** The same pair of frames twelve seconds apart is not resolved. */
  lemma StalePairScenario(t0: Micros)
    ensures var resolve := ConstantFix(37.0, -122.0);
            var k: Address := Some("AA");
            var s1 := Update(Init(), Flight("position", "F1", NoData.(cprOddFlag := Present(0))), t0, resolve);
            var s2 := Update(s1.registry, Flight("position", "F2", NoData.(cprOddFlag := Present(1))), t0 + 12 * MicrosPerSecond, resolve);
            s2.registry.aircraft[k].lat.None? && s2.registry.aircraft[k].odd.Some?
  {
    ParseName(Position);
  }
}

=== FILE: pipeline.dfy ===
/** The decoder's output as the registry sees it, and what follows for the
    registry when every message comes from the decoder. */
module Pipeline {
  import opened Common
  import opened AircraftState
  import opened DecodedMessage
  import opened SeenAircraft
  import opened AdsbDecoder

  /** The dictionary `decode_message` returns, as the registry reads it. An
      error dictionary has no "icao" key. */
  function AsMessage(r: DecodeResult): (m: Message)
    ensures m.icao.Present? <==> r.Decoded?
    ensures r.Decoded? ==> Parse(m.msgType) == Some(r.msgType) && m.icao.value == r.icao
    ensures r.Decoded? ==> m.msg == Some(r.msg) && m.data == r.data
  {
    match r
    case Decoded(msg, _, icao, _, category, data) =>
      ParseName(category);
      Message(Present(icao), Some(Name(category)), Some(msg), data)
    case DecodeError(_, _) => Message(Absent, None, None, NoData)
  }

  /** Decoding and then updating: the registry step for one received line. */
  function Ingest(reg: Registry, line: string, lib: ModeS, now: Micros, resolve: Resolver): Step
  {
    Update(reg, AsMessage(DecodeMessage(line, lib)), now, resolve)
  }

  /** A line the decoder rejects leaves the registry untouched and yields nothing. */
  lemma ErrorLeavesRegistry(reg: Registry, line: string, lib: ModeS, now: Micros, resolve: Resolver)
    requires DecodeMessage(line, lib).DecodeError?
    ensures Ingest(reg, line, lib, now, resolve) == Step(reg, None)
  {
  }

  /** An identity frame whose callsign is blank once stripped leaves an
      already tracked aircraft exactly as it was: no field, no timestamp
      and no counter moves. */
  lemma BlankCallsignChangesNothing(reg: Registry, line: string, lib: ModeS, now: Micros, resolve: Resolver)
    requires var r := DecodeMessage(line, lib);
             && r.Decoded? && r.msgType == Identity && r.icao in reg.aircraft
             && r.data.callsign.Present? && r.data.callsign.value == Some([])
    ensures Ingest(reg, line, lib, now, resolve).registry == reg
  {
    var r := DecodeMessage(line, lib);
    var m := AsMessage(r);
    IdentityEffect(reg.aircraft[r.icao], m, now, resolve);
    assert reg.aircraft[r.icao := reg.aircraft[r.icao]] == reg.aircraft;
  }

  /** A decoded surface position never carries an altitude, so it only
      counts the message: the surface-altitude branch of the registry is
      never taken for frames from this decoder. */
  lemma DecodedSurfaceOnlyCounts(a: Aircraft, line: string, lib: ModeS, now: Micros, resolve: Resolver)
    requires var r := DecodeMessage(line, lib); r.Decoded? && r.msgType == SurfacePosition
    ensures var r := Apply(a, AsMessage(DecodeMessage(line, lib)), now, resolve);
            Bumped(a, r, now) && AgreeExcept(a, r, {})
  {
    var m := AsMessage(DecodeMessage(line, lib));
    PositionResultShape(line, lib);
    PositionEffect(a, m, now, resolve);
  }

  /** The decoder never writes a velocity key with `None`, so a complete
      record stays complete under every decoded message. */
  lemma DecodedKeepsCompleteness(a: Aircraft, line: string, lib: ModeS, now: Micros, resolve: Resolver)
    requires IsComplete(a)
    ensures IsComplete(Apply(a, AsMessage(DecodeMessage(line, lib)), now, resolve))
  {
    var r := DecodeMessage(line, lib);
    var m := AsMessage(r);
    VelocityResultShape(line, lib);
    assert !ClearsVelocity(m);
    ApplyKeepsCompleteness(a, m, now, resolve);
  }

  /** A velocity frame whose tuple has all three components and a tag counts
      as four messages, not one. */
  lemma FullVelocityCountsFour(a: Aircraft, line: string, lib: ModeS, now: Micros, resolve: Resolver)
    requires var r := DecodeMessage(line, lib);
             && r.Decoded? && r.msgType == Velocity
             && lib.velocity(r.msg).Returns? && lib.velocity(r.msg).value.Some?
             && var t := lib.velocity(r.msg).value.value;
                t.arity >= 4 && t.speed.Some? && t.heading.Some? && t.verticalRate.Some? && TruthyText(t.tag)
    ensures Apply(a, AsMessage(DecodeMessage(line, lib)), now, resolve).messageCount == a.messageCount + 4
  {
    var m := AsMessage(DecodeMessage(line, lib));
    VelocityResultShape(line, lib);
    VelocityEffect(a, m, now, resolve);
  }
}

=== FILE: seen_aircraft.dfy ===
/** The registry of seen aircraft (`SeenAircraft` in the source): one record
    per address, created on first sight, updated by each decoded message
    according to its category, returned to the caller whenever it is complete,
    and evicted after a period of silence. */
module SeenAircraft {
  import opened Common
  import opened AircraftState
  import opened DecodedMessage

  /** Records silent for longer than this many seconds are evicted. */
  const DefaultCleanupThresholdSeconds: int := 300

  datatype Registry = Registry(aircraft: map<Address, Aircraft>, cleanupThresholdSeconds: int)

  /** `SeenAircraft()`: no aircraft, the default eviction threshold. */
  function Init(): (r: Registry)
    ensures |r.aircraft| == 0
    ensures r.cleanupThresholdSeconds == 300
  {
    Registry(map[], DefaultCleanupThresholdSeconds)
  }

  /** The categories handled by the position branch. */
  const PositionKinds: set<Category> := {Position, PositionGnss, SurfacePosition}

  /** The surveillance categories that may carry an altitude. */
  const AltitudeKinds: set<Category> := {SurveillanceAlt, CommbAlt, ShortAcas, LongAcas}

  /** Categories that are only counted. */
  const CountOnlyKinds: set<Category> := {Status, TargetState, OperationStatus, AllCall, AdsbOther, UnknownDf}

  /** The position branch: an airborne frame that carries its raw text goes
      through CPR pairing; a surface frame with raw text only takes its
      altitude; a frame without raw text is only counted. */
  function ApplyPosition(a: Aircraft, airborne: bool, m: Message, now: Micros, resolve: Resolver): (r: Aircraft)
    ensures Bumped(a, r, now)
    ensures !airborne || !TruthyText(m.msg) ==> AgreeExcept(a, r, {Alt})
    ensures !airborne && TruthyText(m.msg) && Get(m.data.altitude).Some? ==> r.alt == Get(m.data.altitude)
    ensures !TruthyText(m.msg) || Get(m.data.altitude).None? ==> r.alt == a.alt
    ensures airborne && TruthyText(m.msg) ==>
              r == UpdatePosition(a, m.msg.value, Get(m.data.altitude), GetOr(m.data.cprOddFlag, 0) != 0, now, resolve).aircraft
  {
    var altitude := Get(m.data.altitude);
    if TruthyText(m.msg) then
      if airborne then
        UpdatePosition(a, m.msg.value, altitude, GetOr(m.data.cprOddFlag, 0) != 0, now, resolve).aircraft
      else if altitude.Some? then Touch(a.(alt := altitude), now)
      else Touch(a, now)
    else
      Touch(a, now)
  }

  /** How many of the four velocity keys the data carries. */
  function VelocityKeys(d: Data): nat
  {
    (if d.speed.Present? then 1 else 0) + (if d.heading.Present? then 1 else 0)
    + (if d.verticalRate.Present? then 1 else 0) + (if d.velocityType.Present? then 1 else 0)
  }

  /** The velocity branch: each key present is handed to its setter, which
      counts; a message with none of the keys is counted once. */
  function ApplyVelocity(a: Aircraft, d: Data, now: Micros): (r: Aircraft)
    ensures r.messageCount == a.messageCount + (if VelocityKeys(d) == 0 then 1 else VelocityKeys(d))
    ensures r.lastSeen == now
    ensures AgreeExcept(a, r, {Speed, Heading, VerticalRate, VelocityType})
    ensures r.speed == (if d.speed.Present? then d.speed.value else a.speed)
    ensures r.heading == (if d.heading.Present? then d.heading.value else a.heading)
    ensures r.verticalRate == (if d.verticalRate.Present? then d.verticalRate.value else a.verticalRate)
    ensures r.velocityType == (if d.velocityType.Present? then d.velocityType.value else a.velocityType)
  {
    var s := if d.speed.Present? then SetSpeed(a, d.speed.value, now) else a;
    var h := if d.heading.Present? then SetHeading(s, d.heading.value, now) else s;
    var v := if d.verticalRate.Present? then SetVerticalRate(h, d.verticalRate.value, now) else h;
    var t := if d.velocityType.Present? then SetVelocityType(v, d.velocityType.value, now) else v;
    if VelocityKeys(d) == 0 then Touch(t, now) else t
  }

  /** The surveillance branch: an altitude that is present and not `None`
      is taken; the message is counted either way. */
  function ApplyAltitude(a: Aircraft, d: Data, now: Micros): (r: Aircraft)
    ensures Bumped(a, r, now)
    ensures AgreeExcept(a, r, {Alt})
    ensures r.alt == (if Get(d.altitude).Some? then Get(d.altitude) else a.alt)
  {
    if d.altitude.Present? && d.altitude.value.Some? then Touch(a.(alt := d.altitude.value), now)
    else Touch(a, now)
  }

  /** The dispatch on "msg_type" applied to the record of the message's
      address. The branches are tried in the source's order; an identity
      message without a "callsign" key reaches the final catch-all. */
  function Apply(a: Aircraft, m: Message, now: Micros, resolve: Resolver): (r: Aircraft)
    ensures r.icao == a.icao && r.firstSeen == a.firstSeen
  {
    var cat := Parse(m.msgType);
    if cat == Some(Identity) && m.data.callsign.Present? then SetCallsign(a, m.data.callsign.value, now)
    else if cat.Some? && cat.value in PositionKinds then ApplyPosition(a, cat.value != SurfacePosition, m, now, resolve)
    else if cat == Some(Velocity) then ApplyVelocity(a, m.data, now)
    else if cat.Some? && cat.value in AltitudeKinds then ApplyAltitude(a, m.data, now)
    else if cat == Some(SurveillanceIdentity) then Touch(a, now)
    else if cat.Some? && cat.value in CountOnlyKinds then Touch(a, now)
    else Touch(a, now)
  }

  /** The record a message for `k` is applied to: the existing one, or a
      fresh record created at `now`. */
  function Tracked(reg: Registry, k: Address, now: Micros): (a: Aircraft)
    ensures k in reg.aircraft ==> a == reg.aircraft[k]
    ensures k !in reg.aircraft ==> a == New(k, None, now)
  {
    if k in reg.aircraft then reg.aircraft[k] else New(k, None, now)
  }

  /** The registry after a message, and what `update_from_decoded_message`
      returns: the record when it is complete, otherwise `None`. */
  datatype Step = Step(registry: Registry, emitted: Option<Aircraft>)

  /** `update_from_decoded_message`. */
  function Update(reg: Registry, m: Message, now: Micros, resolve: Resolver): (s: Step)
    ensures m.icao.Absent? ==> s == Step(reg, None)
    ensures m.icao.Present? ==>
              var k := m.icao.value;
              && s.registry.cleanupThresholdSeconds == reg.cleanupThresholdSeconds
              && s.registry.aircraft.Keys == reg.aircraft.Keys + {k}
              && s.registry.aircraft[k] == Apply(Tracked(reg, k, now), m, now, resolve)
              && (forall j :: j in reg.aircraft && j != k ==> s.registry.aircraft[j] == reg.aircraft[j])
              && (s.emitted.Some? <==> IsComplete(s.registry.aircraft[k]))
              && (s.emitted.Some? ==> s.emitted.value == s.registry.aircraft[k])
  {
    match m.icao
    case Absent => Step(reg, None)
    case Present(k) =>
      var a := Apply(Tracked(reg, k, now), m, now, resolve);
      Step(reg.(aircraft := reg.aircraft[k := a]), if IsComplete(a) then Some(a) else None)
  }

  /** A record is stale when it has been silent for strictly longer than the
      registry's threshold. */
  predicate Stale(reg: Registry, a: Aircraft, now: Micros)
  {
    now - a.lastSeen > reg.cleanupThresholdSeconds * MicrosPerSecond
  }

  /** `cleanup_old_aircraft`: collect the addresses of stale records, then
      delete them. */
  method CleanupOldAircraft(reg: Registry, now: Micros) returns (r: Registry)
    ensures r.cleanupThresholdSeconds == reg.cleanupThresholdSeconds
    ensures forall k :: k in r.aircraft <==> k in reg.aircraft && !Stale(reg, reg.aircraft[k], now)
    ensures forall k :: k in r.aircraft ==> r.aircraft[k] == reg.aircraft[k]
    ensures forall k :: k in r.aircraft ==> now - r.aircraft[k].lastSeen <= r.cleanupThresholdSeconds * MicrosPerSecond
  {
    var toRemove: set<Address> := {};
    var pending := reg.aircraft.Keys;
    while pending != {}
      invariant pending <= reg.aircraft.Keys
      invariant forall k :: k in toRemove <==> k in reg.aircraft && k !in pending && Stale(reg, reg.aircraft[k], now)
      decreases pending
    {
      var k :| k in pending;
      if Stale(reg, reg.aircraft[k], now) {
        toRemove := toRemove + {k};
      }
      pending := pending - {k};
    }
    r := reg.(aircraft := reg.aircraft - toRemove);
  }

  /** `get_complete_aircraft`: the complete records, under their addresses. */
  function CompleteAircraft(reg: Registry): (c: map<Address, Aircraft>)
    ensures forall k :: k in c <==> k in reg.aircraft && IsComplete(reg.aircraft[k])
    ensures forall k :: k in c ==> c[k] == reg.aircraft[k]
  {
    map k | k in reg.aircraft && IsComplete(reg.aircraft[k]) :: reg.aircraft[k]
  }

  /** `get_aircraft_count`: the number of tracked addresses, zero exactly
      when nothing is tracked. */
  function AircraftCount(reg: Registry): (n: nat)
    ensures n == |reg.aircraft.Keys|
    ensures n == 0 <==> reg.aircraft == map[]
  {
    |reg.aircraft|
  }

  /** `get_complete_aircraft_count`: never more than the tracked count, and
      equal to it exactly when every tracked record is complete. */
  function CompleteCount(reg: Registry): (n: nat)
    ensures n == |set k | k in reg.aircraft && IsComplete(reg.aircraft[k])|
    ensures n <= AircraftCount(reg)
    ensures n == AircraftCount(reg) <==> forall k :: k in reg.aircraft ==> IsComplete(reg.aircraft[k])
  {
    var c := CompleteAircraft(reg);
    assert |reg.aircraft.Keys - c.Keys| == |reg.aircraft.Keys| - |c.Keys| by {
      assert c.Keys <= reg.aircraft.Keys;
    }
    assert |c| == |reg.aircraft| <==> forall k :: k in reg.aircraft ==> IsComplete(reg.aircraft[k]) by {
      if forall k :: k in reg.aircraft ==> IsComplete(reg.aircraft[k]) {
        assert c.Keys == reg.aircraft.Keys;
      } else {
        var k :| k in reg.aircraft && !IsComplete(reg.aircraft[k]);
        assert k in reg.aircraft.Keys - c.Keys;
      }
    }
    |c|
  }

  /** An identity message: a truthy callsign is stored and counted; an empty
      or `None` callsign leaves the record exactly as it was (not even its
      timestamp or counter moves); without a "callsign" key the message falls
      through to the catch-all and is only counted. */
  lemma IdentityEffect(a: Aircraft, m: Message, now: Micros, resolve: Resolver)
    requires Parse(m.msgType) == Some(Identity)
    ensures var r := Apply(a, m, now, resolve);
            && (m.data.callsign.Present? && TruthyText(m.data.callsign.value) ==>
                  r.callsign == m.data.callsign.value && Bumped(a, r, now) && AgreeExcept(a, r, {Callsign}))
            && (m.data.callsign.Present? && !TruthyText(m.data.callsign.value) ==> r == a)
            && (m.data.callsign.Absent? ==> Bumped(a, r, now) && AgreeExcept(a, r, {}))
  {
  }

  /** A position, GNSS position or surface position message: an airborne
      frame with its raw text is handed to the CPR pairing update; a surface
      frame never touches latitude, longitude or the buffers and takes its
      altitude only when one is given; without raw text the message is only
      counted. Every such message is counted exactly once. */
  lemma PositionEffect(a: Aircraft, m: Message, now: Micros, resolve: Resolver)
    requires Parse(m.msgType).Some? && Parse(m.msgType).value in PositionKinds
    ensures var r := Apply(a, m, now, resolve);
            var cat := Parse(m.msgType).value;
            && Bumped(a, r, now)
            && (cat != SurfacePosition && TruthyText(m.msg) ==>
                  r == UpdatePosition(a, m.msg.value, Get(m.data.altitude),
                                      GetOr(m.data.cprOddFlag, 0) != 0, now, resolve).aircraft)
            && (cat == SurfacePosition ==> AgreeExcept(a, r, {Alt}))
            && (cat == SurfacePosition && TruthyText(m.msg) ==>
                  r.alt == (if Get(m.data.altitude).Some? then Get(m.data.altitude) else a.alt))
            && (!TruthyText(m.msg) ==> AgreeExcept(a, r, {}))
  {
  }

  /** A velocity message: each of the four keys that is present is assigned
      (`None` included) and counted on its own; a message with none of them
      is counted once; nothing else changes. */
  lemma VelocityEffect(a: Aircraft, m: Message, now: Micros, resolve: Resolver)
    requires Parse(m.msgType) == Some(Velocity)
    ensures var r := Apply(a, m, now, resolve);
            var d := m.data;
            && r.messageCount == a.messageCount + (if VelocityKeys(d) == 0 then 1 else VelocityKeys(d))
            && r.lastSeen == now
            && AgreeExcept(a, r, {Speed, Heading, VerticalRate, VelocityType})
            && (d.speed.Present? ==> r.speed == d.speed.value)
            && (d.heading.Present? ==> r.heading == d.heading.value)
            && (d.verticalRate.Present? ==> r.verticalRate == d.verticalRate.value)
            && (d.velocityType.Present? ==> r.velocityType == d.velocityType.value)
            && (d.speed.Absent? ==> r.speed == a.speed)
            && (d.heading.Absent? ==> r.heading == a.heading)
            && (d.verticalRate.Absent? ==> r.verticalRate == a.verticalRate)
            && (d.velocityType.Absent? ==> r.velocityType == a.velocityType)
  {
  }

  /** A surveillance, Comm-B or ACAS reply: an altitude that is present and
      not `None` is taken, otherwise the altitude stays; counted once. */
  lemma AltitudeEffect(a: Aircraft, m: Message, now: Micros, resolve: Resolver)
    requires Parse(m.msgType).Some? && Parse(m.msgType).value in AltitudeKinds
    ensures var r := Apply(a, m, now, resolve);
            && Bumped(a, r, now)
            && AgreeExcept(a, r, {Alt})
            && (m.data.altitude.Present? && m.data.altitude.value.Some? ==> r.alt == m.data.altitude.value)
            && (m.data.altitude.Absent? || m.data.altitude.value.None? ==> r.alt == a.alt)
  {
  }

  /** Surveillance identity, status, target state, operation status,
      all-call, other ADS-B and unknown downlink formats, and any
      "msg_type" the registry does not know: counted once, nothing stored. */
  lemma CountOnlyEffect(a: Aircraft, m: Message, now: Micros, resolve: Resolver)
    requires || Parse(m.msgType) == Some(SurveillanceIdentity)
             || (Parse(m.msgType).Some? && Parse(m.msgType).value in CountOnlyKinds)
             || Parse(m.msgType).None?
    ensures var r := Apply(a, m, now, resolve);
            Bumped(a, r, now) && AgreeExcept(a, r, {})
  {
  }

  /** How much one message adds to its record's counter: nothing for an
      identity message whose callsign is empty or `None`, one per velocity
      key present (at least one), one for everything else. */
  function Increment(m: Message): nat
  {
    var cat := Parse(m.msgType);
    if cat == Some(Identity) && m.data.callsign.Present? then
      (if TruthyText(m.data.callsign.value) then 1 else 0)
    else if cat == Some(Velocity) then
      (if VelocityKeys(m.data) == 0 then 1 else VelocityKeys(m.data))
    else 1
  }

  /** The counter rises by exactly `Increment(m)`, and the last-seen time
      moves to `now` exactly when the counter moves. */
  lemma ApplyCount(a: Aircraft, m: Message, now: Micros, resolve: Resolver)
    ensures Apply(a, m, now, resolve).messageCount == a.messageCount + Increment(m)
    ensures Apply(a, m, now, resolve).lastSeen == (if Increment(m) == 0 then a.lastSeen else now)
  {
    var cat := Parse(m.msgType);
    if cat == Some(Identity) {
      IdentityEffect(a, m, now, resolve);
    } else if cat.Some? && cat.value in PositionKinds {
      PositionEffect(a, m, now, resolve);
    } else if cat == Some(Velocity) {
      VelocityEffect(a, m, now, resolve);
    } else if cat.Some? && cat.value in AltitudeKinds {
      AltitudeEffect(a, m, now, resolve);
    } else {
      CountOnlyEffect(a, m, now, resolve);
    }
  }

  /** A counted change that leaves position and buffers alone keeps a record
      valid. */
  lemma BumpKeepsValid(a: Aircraft, r: Aircraft, now: Micros)
    requires Valid(a) && a.lastSeen <= now
    requires Bumped(a, r, now) && AgreeExcept(a, r, {Callsign, Alt, Speed, Heading, VerticalRate, VelocityType})
    ensures Valid(r)
  {
  }

  /** Applying a message keeps a record valid, provided the clock does not
      run backwards. */
  lemma ApplyKeepsValid(a: Aircraft, m: Message, now: Micros, resolve: Resolver)
    requires Valid(a) && a.lastSeen <= now
    ensures Valid(Apply(a, m, now, resolve))
  {
    var r := Apply(a, m, now, resolve);
    var cat := Parse(m.msgType);
    if cat == Some(Identity) {
      IdentityEffect(a, m, now, resolve);
      if r != a { BumpKeepsValid(a, r, now); }
    } else if cat.Some? && cat.value in PositionKinds {
      PositionEffect(a, m, now, resolve);
      if cat.value != SurfacePosition && TruthyText(m.msg) {
        UpdatePositionKeepsValid(a, m.msg.value, Get(m.data.altitude), GetOr(m.data.cprOddFlag, 0) != 0, now, resolve);
      } else {
        BumpKeepsValid(a, r, now);
      }
    } else if cat == Some(Velocity) {
      VelocityEffect(a, m, now, resolve);
    } else if cat.Some? && cat.value in AltitudeKinds {
      AltitudeEffect(a, m, now, resolve);
      BumpKeepsValid(a, r, now);
    } else {
      CountOnlyEffect(a, m, now, resolve);
      BumpKeepsValid(a, r, now);
    }
  }

  /** Whether a message assigns `None` to one of the velocity components
      that completeness needs. */
  predicate ClearsVelocity(m: Message)
  {
    && Parse(m.msgType) == Some(Velocity)
    && (|| m.data.speed == Present(None)
        || m.data.heading == Present(None)
        || m.data.verticalRate == Present(None))
  }

  /** A complete record stays complete under every message that does not
      assign `None` to a velocity component; one that does revokes it. */
  lemma ApplyKeepsCompleteness(a: Aircraft, m: Message, now: Micros, resolve: Resolver)
    requires IsComplete(a)
    ensures IsComplete(Apply(a, m, now, resolve)) <==> !ClearsVelocity(m)
  {
    var cat := Parse(m.msgType);
    if cat == Some(Identity) {
      IdentityEffect(a, m, now, resolve);
    } else if cat.Some? && cat.value in PositionKinds {
      PositionEffect(a, m, now, resolve);
    } else if cat == Some(Velocity) {
      VelocityEffect(a, m, now, resolve);
    } else if cat.Some? && cat.value in AltitudeKinds {
      AltitudeEffect(a, m, now, resolve);
    } else {
      CountOnlyEffect(a, m, now, resolve);
    }
  }

  /** The buffer of one parity: the odd one when `odd` holds. */
  function Buffer(a: Aircraft, odd: bool): Option<CprFrame>
  {
    if odd then a.odd else a.even
  }

  /** Whether a message would be buffered as a CPR frame of the given parity. */
  predicate CarriesFrame(m: Message, odd: bool)
  {
    && Parse(m.msgType).Some?
    && Parse(m.msgType).value in {Position, PositionGnss}
    && TruthyText(m.msg)
    && (GetOr(m.data.cprOddFlag, 0) != 0) == odd
  }

  /** A message that carries no frame of a parity leaves that buffer as it was. */
  lemma ApplyKeepsOtherBuffer(a: Aircraft, m: Message, now: Micros, resolve: Resolver, odd: bool)
    requires !CarriesFrame(m, odd)
    ensures Buffer(Apply(a, m, now, resolve), odd) == Buffer(a, odd)
  {
    var cat := Parse(m.msgType);
    if cat.Some? && cat.value in PositionKinds {
      PositionEffect(a, m, now, resolve);
    } else if cat == Some(Velocity) {
      VelocityEffect(a, m, now, resolve);
    } else if cat.Some? && cat.value in AltitudeKinds {
      AltitudeEffect(a, m, now, resolve);
    }
  }

  /** Every record of the registry is valid. */
  predicate AllValid(reg: Registry)
  {
    forall k :: k in reg.aircraft ==> Valid(reg.aircraft[k])
  }

  /** No record of the registry was last seen after `now`. */
  predicate SeenBy(reg: Registry, now: Micros)
  {
    forall k :: k in reg.aircraft ==> reg.aircraft[k].lastSeen <= now
  }

  /** An update keeps every record valid and the registry in step with a
      clock that does not run backwards. */
  lemma UpdateKeepsValid(reg: Registry, m: Message, now: Micros, resolve: Resolver)
    requires AllValid(reg) && SeenBy(reg, now)
    ensures AllValid(Update(reg, m, now, resolve).registry)
    ensures SeenBy(Update(reg, m, now, resolve).registry, now)
  {
    if m.icao.Present? {
      var k := m.icao.value;
      ApplyKeepsValid(Tracked(reg, k, now), m, now, resolve);
      ApplyCount(Tracked(reg, k, now), m, now, resolve);
    }
  }

  /** The registry grows by one record exactly when a message names an
      address it has not seen. */
  lemma UpdateCountsNewAddress(reg: Registry, m: Message, now: Micros, resolve: Resolver)
    ensures AircraftCount(Update(reg, m, now, resolve).registry)
            == AircraftCount(reg) + (if m.icao.Present? && m.icao.value !in reg.aircraft then 1 else 0)
  {
    if m.icao.Present? {
      var k := m.icao.value;
      var after := Update(reg, m, now, resolve).registry.aircraft;
      if k in reg.aircraft {
        assert after.Keys == reg.aircraft.Keys;
      } else {
        assert after.Keys == reg.aircraft.Keys + {k};
        assert |after.Keys| == |reg.aircraft.Keys| + 1;
      }
    }
  }
}
